=== FILE: README.md ===
# IFDL scheduling, decision and bookkeeping logic in Dafny

IFDL is a desktop script that drives an Android phone mirrored with scrcpy.
It wakes the phone at three randomly drawn times of day, chosen by school
type. It then loops for a while: a CLIP model classifies a screenshot, the
script clicks on a confident detection, scrolls the feed, and keeps
per-label detection counts in a CSV file.

This project models the parts of `IFDL.py` that decide things. These are:

- the bounded Cauchy sampler;
- the click and scroll geometry;
- the `HH:MM` time arithmetic and the school-time profiles;
- one poll of the scheduler, and runs of polls;
- the classification decision and the counter update;
- loading and saving the counts;
- parsing `adb shell wm size`;
- the unlock command sequence;
- a session as a trace of events.

Randomness, clock readings, the classifier's probability vector, and whether
a click raised are all inputs. A model function receives them as oracle
arguments: a list of 100 already-truncated candidates for each
`bounded_cauchy` call, the `randint` results, and the minute and
microsecond clock readings of a poll.

Modules follow the program's structure:

| module | covers |
|---|---|
| `Basics` | `Option`, `Min`, `Max` |
| `PyStr` | the Python string operations the script relies on: `strip`, `split`, `str(int)`, `int(str)` |
| `PyDict` | an insertion-ordered dict as an association list, and dict displays |
| `Sampler` | `bounded_cauchy` |
| `Gestures` | coordinates of `perform_clicks` and `do_scroll` |
| `TimeOfDay` | `generate_random_time`, `generate_school_times`, `is_within_time` |
| `Scheduler` | `scheduler_loop` as a transition function |
| `LabelCounts` | `load_label_counts`, `save_label_counts`, the increment |
| `Perception` | the decision of `classify_and_click` |
| `Device` | `get_screen_size`, `unlock_device` and the key/swipe helpers |
| `Session` | `run_session` |

Two behaviours of the code are easy to miss, and the model keeps both as
written:

- The duration lookup at `IFDL.py:480-484` matches `now` against the three
  trigger strings exactly; the comment on line 484 says so. A poll at 07:45
  is within the 5-minute tolerance of a 07:50 start trigger, so it starts a
  session. That session runs the default 60 minutes, not a morning-length one
  (`Scheduler.NearMatchGetsDefaultDuration`).
- A device whose display size is overridden prints an `Override size:` line
  after the physical size. The text after `Physical size:` then holds two
  `x`, so the two-name unpacking at `IFDL.py:79` raises `ValueError`.
  1080x1920 is returned although a physical size was printed
  (`Device.ScreenSizeWithOverrideFallsBack`).

## Model

| member | source | states |
|---|---|---|
| Sampler.Clamp | IFDL.py:232 | the fallback `max(min(c, hi), lo)` is the nearest point of `[lo, hi]` to `c`: `c` itself when inside, `lo` when below, `hi` when above; with inverted bounds it is `lo` |
| Sampler.FirstInBounds | IFDL.py:227-230 | the index found is the first candidate inside the bounds; when none is found, no candidate is inside |
| Sampler.BoundedCauchy | IFDL.py:213-232 | the result is inside `[lo, hi]` whenever that interval is non-empty, on both the accept path and the fallback; it is the first in-bounds candidate when one exists, and the clamped centre otherwise |
| Gestures.ClickPoint | IFDL.py:282-288 | each coordinate is the first of its 100 candidates inside the 15–50% band of its axis, or exactly 30% of the axis when all miss; the click lies in the click box, hence inside `[0, w] × [0, h]` |
| Gestures.ScrollSwipe | IFDL.py:303-321 | x1, x2 and y1 are each the first candidate inside their band (30–70% across, 30–95% down) or the clamped centre (50%, 50%, 85%) when all miss; both swipe ends lie in the 30–70% by 30–95% box; the duration is the drawn one, 100..200 ms; the end is the first end sample when the start is not above it, and exactly the re-sample when it is; an upward swipe means both end samples were below the start |
| Gestures.Percent | IFDL.py:303-309 | `int(n * p / 100)` truncates toward zero: for a non-negative size the result is the largest integer whose 100-fold is at most `n * p`; for a negative size, the smallest whose 100-fold is at least `n * p` |
| Gestures.ScrollMayStillGoUpward | IFDL.py:317-319 | the single re-sample does not guarantee a downward swipe: a concrete 1080x1920 case still goes upward |
| TimeOfDay.Format | IFDL.py:389 | `strftime("%H:%M")` writes the hour and then the minute, each as two decimal digits, around a colon |
| TimeOfDay.Parse | IFDL.py:382-384 | every string `strptime` accepts is exactly what `strftime` writes for the minute read; with `TimeOfDay.ParseFormat`, the accepted strings are exactly the formatted ones |
| TimeOfDay.ParseFormat | IFDL.py:381-389 | parsing an `HH:MM` string produced by `strftime` gives the same minute back |
| TimeOfDay.FormatInjective | IFDL.py:480-484 | two minutes print the same `HH:MM` string exactly when they are equal, so the duration lookup by string is a lookup by minute |
| TimeOfDay.StrLeClock | IFDL.py:465 | Python's string order on two `HH:MM`-shaped strings compares hour digits, then minute digits |
| TimeOfDay.FormatOrder | IFDL.py:465 | comparing two zero-padded `HH:MM` strings as Python strings is comparing the minutes |
| TimeOfDay.GenerateRandomTime | IFDL.py:371-389 | the drawn time lies in `[s, e]` for a same-day window and in `[s, 24:00) ∪ [00:00, e]` for one that wraps past midnight; `s == e` gives `s` |
| TimeOfDay.RandomTimeCoversWindow | IFDL.py:383-389 | every minute of the window is produced by some admissible `randint` draw |
| TimeOfDay.GenerateSchoolTimes | IFDL.py:391-415 | codes `u`, `h` and `p` give the trigger set of `generate_random_time` over that profile's three windows with the drawn offsets, each time inside its window; any other code gives `None` |
| TimeOfDay.SchoolTimesCoverProfile | IFDL.py:391-415 | every trigger set whose three times lie in a profile's windows is produced for that code by some admissible draws |
| TimeOfDay.IsWithinTime | IFDL.py:417-439 | the ±12 hour shift followed by the absolute difference is true exactly when the circular distance between the two times is within the tolerance |
| TimeOfDay.IsWithinTimeReflexive | IFDL.py:429-439 | a time is within any non-negative tolerance of itself |
| TimeOfDay.IsWithinTimeSymmetric | IFDL.py:429-439 | swapping current and target does not change the answer |
| TimeOfDay.IsWithinTimeAcrossMidnight | IFDL.py:429-439 | 23:58 is within 5 minutes of 00:02 |
| Scheduler.StartScheduler | IFDL.py:452-459 | an unknown school code stops the scheduler before its loop; a known one starts with its generated trigger set and no recorded activation |
| Scheduler.RegenerationWindow | IFDL.py:465 | the string test `"00:30" <= now <= "00:40"` holds exactly for the minutes 00:30 to 00:40 |
| Scheduler.Step | IFDL.py:461-489 | a poll regenerates exactly in 00:30..00:40 and triggers change only then; it starts a session exactly when some trigger is within 5 minutes and there was no activation or it is over 15 minutes old; the last activation changes only when a session starts, to the clock read then; a started session lasts 45 to 180 minutes, the duration `Scheduler.SessionDuration` gives for the poll's minute and the (possibly regenerated) triggers |
| Scheduler.SessionDurationPriority | IFDL.py:480-484 | looking `now`'s `HH:MM` string up in the three-entry dict display gives the bedtime draw when `now` is the bedtime, else the end draw, else the start draw, else 60: of equal trigger times the entry written last wins |
| Scheduler.SessionDuration | IFDL.py:480-484 | the duration of a triggered session is the bedtime draw when `now` is the bedtime, else the end draw when it is the end time, else the start draw when it is the start time, and 60 otherwise |
| Scheduler.SessionDurationRanges | IFDL.py:480-484 | an exact start, end or bedtime match gives 45..60, 160..180 or 75..90 minutes; otherwise exactly 60 |
| Scheduler.NearMatchGetsDefaultDuration | IFDL.py:473-484 | a poll at 07:45 near a 07:50 trigger starts a 60-minute session, not a morning-length one |
| Scheduler.Run | IFDL.py:461-489 | the sessions of a run are the first poll's own `Step` spawn, recorded at that poll's clock, followed by those of the remaining polls run from the state that step left, so at most one per poll; without polls the state is unchanged; every session lasts 45 to 180 minutes and was recorded at one of the polls' clocks; afterwards the last activation is that of the last session started, or the one before the run when none was |
| Scheduler.RunSpawnsSpaced | IFDL.py:473-477 | with clocks moving forward, any two sessions a run starts are more than 15 minutes apart, and each is over 15 minutes after the activation recorded before the run |
| PyDict.Put | IFDL.py:179 | item assignment replaces the value of an existing key in place, or appends a new key; other keys keep their values and positions |
| PyDict.FromPairsLastWins | IFDL.py:480-484 | in a dict display the value of a repeated key is the one written last |
| LabelCounts.Increment | IFDL.py:268 | `counts.get(label, 0) + 1` raises the label's count by one (a new label starts at 1) and leaves every other label unchanged |
| LabelCounts.Load | IFDL.py:164-184 | a missing or unopenable file gives no counts, and the result never has a duplicate label |
| LabelCounts.LoadLastWins | IFDL.py:171-182 | each label's loaded count comes from the last row naming it that has two fields and an integer count; other rows have no effect |
| LabelCounts.SaveRows | IFDL.py:186-199 | one two-field row per entry, in dict order, each headed by its label |
| LabelCounts.SaveLoadRoundTrip | IFDL.py:164-199 | loading what the saver wrote gives back the same counts, order included |
| PyStr.Strip | IFDL.py:77 | `str.strip()` gives a slice of its input with only whitespace cut from either side; the result neither starts nor ends with whitespace, and text already in that shape is returned unchanged |
| PyStr.Split | IFDL.py:77-80 | `str.split` gives pieces that join back to the input and contain no separator, and more than one piece exactly when the separator occurs |
| PyStr.LastPieceOfSplit | IFDL.py:77 | `LastPiece`, the scan that keeps the text after each cut, is the last element of `str.split` |
| PyStr.LastPieceAfterLastSeparator | IFDL.py:77 | for a separator that cannot overlap itself, `(pre + sep + tail).split(sep)[-1]` is `tail` whenever `tail` holds no separator, whatever `pre` holds |
| PyStr.ParseInt | IFDL.py:179 | `int()` reads a value only from text whose stripped form ends in a digit, and a negative one only after a leading `-`; a stripped digit run (single underscores between digits allowed) reads as its value |
| PyStr.ParseIntOfIntToStr | IFDL.py:179-197 | `int()` reads back what `str()` wrote for any integer, so saved counts reload unchanged |
| Perception.ArgMax | IFDL.py:261 | the index returned holds the maximum probability and no earlier index does |
| Perception.FirstMaxUnique | IFDL.py:261 | there is only one first maximum, so the chosen label is determined by the vector |
| Perception.Decide | IFDL.py:258-271 | a match happens exactly when the first maximum names a label and its probability is strictly above 0.51; failures and empty vectors are no match |
| Perception.Record | IFDL.py:266-271 | once the decision is made, a detection raises its label's count by one and leaves every other count alone, the result being true only when the clicks did not raise; no detection changes nothing |
| Perception.ClassifyAndClick | IFDL.py:234-274 | on a detection the label's count goes up by one and no other count changes, even when the clicks then raise; the result is true only for a detection whose clicks went through; without a detection nothing changes |
| Perception.DecidePeak | IFDL.py:261-266 | a vector with one strictly largest entry matches that entry's label exactly when the entry exceeds 0.51 |
| Perception.CodingScenario | IFDL.py:261-271 | from no counts, 0.80 on "coding" gives {"coding": 1}; a following 0.40 leaves it unchanged |
| Device.GetScreenSize | IFDL.py:67-86 | output without the marker gives 1080x1920 |
| Device.ScreenSizeReadsAfterLastMarker | IFDL.py:76-83 | whatever precedes it, the size is read from the stripped text after the last `Physical size:` |
| Device.ScreenSizeMissingHeightFallsBack | IFDL.py:79-83 | `Physical size: 1080x`, a width without a height, falls back to 1080x1920 |
| Device.ScreenSizeAfterMarker | IFDL.py:75-83 | output that is the marker, one space, and text that starts and ends with a digit and holds no `P` is read from that text |
| Device.SizeFromText | IFDL.py:77-83 | a size other than the default comes from text that splits on `x` into exactly two integers, and text that splits so is read as those two integers |
| Device.ScreenSizeOfCanonicalOutput | IFDL.py:75-80 | `Physical size: WxH` is read as `(W, H)` for all naturals `W`, `H` |
| Device.ScreenSizeWithOverrideFallsBack | IFDL.py:76-83 | output that also carries an `Override size:` line falls back to 1080x1920 |
| Device.UnlockDevice | IFDL.py:101-152 | the screen is always woken first; the PIN is typed exactly for method "pin" with a non-empty PIN, after the swipe and directly followed by Enter, and Enter is sent only then; "no_pin" only swipes; otherwise only a warning; no other text is typed; exactly 5 actions with a PIN and 3 otherwise, so nothing else is sent |
| Session.PassEvents | IFDL.py:347-351 | a pass starts with a click exactly when `classify_and_click` returned true, then scrolls, saves the updated counts and pauses 2 to 17 s after a click or 1 to 5 s otherwise; every event is within its drawn range |
| Session.PassSavesOnce | IFDL.py:347-351 | one pass saves once, and the rows saved are the updated counts |
| Session.Executed | IFDL.py:346 | the passes made are the turns before the first one that fails `time.time() < end_time and running_event.is_set()` |
| Session.Loop | IFDL.py:346-351 | the loop makes exactly that many passes and ends exactly when a turn fails the condition; passes and saves are equal in number; the last save holds the final counts; every event is within its drawn range |
| Session.LoopPerPass | IFDL.py:346-351 | the loop's trace holds exactly one scroll and one pause per pass made, and no device command |
| Session.LoopClicks | IFDL.py:346-351 | the loop's trace holds exactly one click per pass whose frame was a detection and whose clicks went through, which is when `classify_and_click` returns true |
| Session.PassCounts | IFDL.py:346-351 | one pass holds one scroll, one save and one pause, a click exactly when `classify_and_click` returned true, and no device command |
| Session.LoopTally | IFDL.py:346-351 | each label's count after the loop is its count before plus the number of passes that detected it |
| Session.RunSession | IFDL.py:325-353 | without the window nothing happens; otherwise the device is unlocked first; the passes made are the leading turns before the end time `start + duration_min * 60` with the stop flag set; every pass ran before the end time with the stop flag set; a finished session ends with the screen turned off; counts are the loaded ones plus one per detection; the trace saves the counts exactly once per pass, and every click lies in the click box, every swipe in the scroll box with a 100..200 ms duration, every pause 1 to 17 seconds; the trace holds one scroll and one pause per pass and one click per pass whose clicks went through; the only device commands are the unlock's and the final power key, none between them |
| Session.LastSaveReloads | IFDL.py:340-353 | after a session with at least one pass, the last file written loads back as the session's final counts |
| Session.NonPositiveDurationRunsNoPass | IFDL.py:340-353 | a session with no positive duration still unlocks and turns the screen off, but runs no pass and changes no count |

## Left out

- The Tkinter window, its buttons and status updates: presentation only.
- Running ADB and scrcpy as processes, and `run_adb_command`'s error handling. A command is an event in a trace. `get_screen_size` receives the text the command printed.
- CLIP loading and inference, and the screenshot. The probability vector, or a failure anywhere in that step, is an input `Frame`.
- Pointer moves and clicks. `Session.PassEvents` records one `Clicked` event for a detection whose clicks went through; a click that raises part way is not traced.
- Threads, the ADB keep-alive loop, `delayed_screen_off` and the shared stop flag. The flag is read once per session pass as an input. The scheduler hands its durations to sessions, but no session runs concurrently in the model.
- Logging: only the unlock warning for an unknown method (`IFDL.py:151`) is traced. The other `logging.info`, `logging.warning` and `logging.error` calls change nothing the program does and are dropped.
- All sleeps. The session's pause length is traced; the scheduler's one- and ten-minute sleeps are not.
- Sampling. `np.random.standard_cauchy` and `random.randint` become oracle inputs. Each `bounded_cauchy` call gets its own list of exactly 100 candidates instead of consuming a shared stream.
- Gestures.ScrollSwipe: the 70% bound of the scroll box is the exact `n * 70 / 100` truncated, not the float product `int(n * 0.7)`. In Python's floating point `int(720 * 0.7)` is 503 where the model gives 504, and `int(1440 * 0.7)` is 1007 against 1008, so for such widths the model's box is one pixel wider. The other percentages used (15, 30, 40, 50, 85, 95) agree with the exact product for every size from 0 to 10000.
- Screen sizes from `int()` may be negative. The box containment of clicks and swipes is stated for non-negative sizes only.
- PyStr.ParseInt: whitespace and digits are ASCII only. Python's `int()` also accepts Unicode whitespace and Unicode decimal digits.
- PyStr.ParseInt: Python 3.11 and later raise `ValueError` for an `int()` or `str()` conversion of more than 4300 digits; the model reads and writes any length, which label counts never approach. The same holds for PyStr.IntToStr.
- PyStr.Strip: whitespace is space, tab, newline, carriage return, vertical tab and form feed. `str.strip()` also removes U+001C to U+001F and Unicode whitespace such as U+0085 and U+00A0.
- TimeOfDay.Parse: only the zero-padded `HH:MM` form is read. `strptime` also accepts single-digit fields; the program only parses strings it formatted itself.
- Device.GetScreenSize: its own contract states only the fallback for output without the marker. Reading the stripped text after the last marker is stated by `Device.ScreenSizeReadsAfterLastMarker`, and reading that text by `Device.SizeFromText`.
- CSV quoting and line splitting. A file is its list of rows.
- LabelCounts.Load: an I/O error part way through reading gives the empty dict, while the program keeps the rows read before the error. A `UnicodeDecodeError` or `csv.Error` raised while reading rows (`IFDL.py:176`) is not an `IOError`: it escapes `run_session` before the unlock, and no `CountFile` value models it.
- Session.LastSaveReloads: `save_label_counts` swallows an `IOError`, possibly after opening with `'w'` has already emptied the file. The model traces every save as written, so a failed save and the empty file it can leave are not modelled.
- Scheduler.Run: whether the ten-minute sleep keeps regeneration to once per night depends on real clock progress. The model takes each poll's minute as given.

=== FILE: basics.dfy ===
/** Small shared vocabulary: an optional value and integer min/max. */
module Basics {

  /** A value that may be absent (Python's `None`). */
  datatype Option<+T> = None | Some(value: T)

  function Min(a: int, b: int): (r: int)
    ensures r <= a && r <= b
    ensures r == a || r == b
  {
    if a <= b then a else b
  }

  function Max(a: int, b: int): (r: int)
    ensures r >= a && r >= b
    ensures r == a || r == b
  {
    if a >= b then a else b
  }
}

=== FILE: device.dfy ===
/**
  The device-facing helpers whose logic is more than a shell call: parsing
  the output of `adb shell wm size` (`get_screen_size`) and the command
  sequence of `unlock_device`. ADB itself is not modelled: the text it
  printed is an input, and the commands are returned as a list.
*/
module Device {
  import opened Basics
  import opened PyStr

  // ---------------------------------------------------------------- screen size

  const SizeMarker: string := "Physical size:"
  const DefaultWidth: int := 1080
  const DefaultHeight: int := 1920

  /** `map(int, text.split("x"))` unpacked into two names: text that splits
      into exactly two pieces, each an integer for `int()`, is read as that
      pair; anything else takes the `ValueError` fallback 1080x1920. */
  function SizeFromText(text: string): (r: (int, int))
    ensures r != (DefaultWidth, DefaultHeight) ==>
              && |Split(text, "x")| == 2
              && ParseInt(Split(text, "x")[0]) == Some(r.0)
              && ParseInt(Split(text, "x")[1]) == Some(r.1)
    ensures |Split(text, "x")| == 2 && ParseInt(Split(text, "x")[0]).Some? && ParseInt(Split(text, "x")[1]).Some? ==>
              r == (ParseInt(Split(text, "x")[0]).value, ParseInt(Split(text, "x")[1]).value)
  {
    var parts := Split(text, "x");
    if |parts| != 2 then (DefaultWidth, DefaultHeight)
    else match (ParseInt(parts[0]), ParseInt(parts[1]))
      case (Some(w), Some(h)) => (w, h)
      case _ => (DefaultWidth, DefaultHeight)
  }

  /** `get_screen_size` given the stripped output of `adb shell wm size`
      (the empty string when the command failed): the text after the LAST
      marker, stripped and read by `SizeFromText`, or 1080x1920 when the
      marker is missing. */
  function GetScreenSize(output: string): (r: (int, int))
    ensures !Contains(output, SizeMarker) ==> r == (DefaultWidth, DefaultHeight)
  {
    if Contains(output, SizeMarker) then SizeFromText(Strip(LastPiece(output, SizeMarker)))
    else (DefaultWidth, DefaultHeight)
  }

  /** No character of `s` is `c`. */
  predicate Lacks(s: string, c: char) {
    forall i :: 0 <= i < |s| ==> s[i] != c
  }

  lemma LacksConcat(s: string, t: string, c: char)
    requires Lacks(s, c) && Lacks(t, c)
    ensures Lacks(s + t, c)
  {
  }

  /** Decimal digits hold neither the marker's first letter nor `x`. */
  lemma NatToStrLacks(n: nat)
    ensures Lacks(NatToStr(n), 'P') && Lacks(NatToStr(n), 'x')
  {
  }

  /** A string lacking the first character of `sep` does not contain it. */
  lemma NoOccurrenceWithoutFirstChar(s: string, sep: string)
    requires |sep| > 0 && Lacks(s, sep[0])
    ensures !Contains(s, sep)
  {
    forall i | 0 <= i <= |s| && i + |sep| <= |s|
      ensures !OccursAt(s, sep, i)
    {
      assert s[i..i + |sep|][0] == s[i];
    }
  }

  /** Such a string is left whole by splitting. */
  lemma SplitWithoutFirstChar(s: string, sep: string)
    requires |sep| > 0 && Lacks(s, sep[0])
    ensures Split(s, sep) == [s]
  {
    NoOccurrenceWithoutFirstChar(s, sep);
  }

  /** Splitting `a + sep + rest` on a one-character `sep` absent from `a`
      cuts at that first separator. */
  lemma SplitAfterFirst(a: string, sep: string, rest: string)
    requires |sep| == 1 && Lacks(a, sep[0])
    ensures Split(a + sep + rest, sep) == [a] + Split(rest, sep)
  {
    var s := a + sep + rest;
    assert s[|a|..|a| + 1] == sep;
    assert OccursAt(s, sep, |a|);
    forall j | 0 <= j < |a|
      ensures !OccursAt(s, sep, j)
    {
      assert s[j..j + 1][0] == a[j];
    }
    assert FindFrom(s, sep, 0) == Some(|a|);
    SplitStep(s, sep, |a|);
    assert s[..|a|] == a;
    assert s[|a| + 1..] == rest;
  }

  /** The case of exactly one separator. */
  lemma SplitAtOnlySeparator(a: string, sep: string, b: string)
    requires |sep| == 1 && Lacks(a, sep[0]) && Lacks(b, sep[0])
    ensures Split(a + sep + b, sep) == [a, b]
  {
    SplitAfterFirst(a, sep, b);
    SplitWithoutFirstChar(b, sep);
  }

  /** One leading space is stripped from text that has no other outer whitespace. */
  lemma StripLeadingSpace(x: string)
    requires |x| > 0 && !IsSpace(x[0]) && !IsSpace(x[|x| - 1])
    ensures Strip(" " + x) == x
  {
    var s := " " + x;
    assert s[1..] == x;
    assert LStrip(s) == LStrip(x) == x;
  }

  /** The marker cannot overlap itself: its first letter occurs nowhere else in it. */
  lemma MarkerNoSelfOverlap()
    ensures NoSelfOverlap(SizeMarker)
  {
    forall k | 0 < k < |SizeMarker|
      ensures !IsBorder(SizeMarker, k)
    {
      assert SizeMarker[k..][0] == SizeMarker[k] != 'P';
    }
  }

  /** Whatever precedes it, the size is read from the stripped text after the
      LAST marker. */
  lemma ScreenSizeReadsAfterLastMarker(pre: string, tail: string)
    requires !Contains(tail, SizeMarker)
    ensures GetScreenSize(pre + SizeMarker + tail) == SizeFromText(Strip(tail))
  {
    var s := pre + SizeMarker + tail;
    assert s[|pre|..|pre| + |SizeMarker|] == SizeMarker;
    assert OccursAt(s, SizeMarker, |pre|);
    MarkerNoSelfOverlap();
    LastPieceAfterLastSeparator(SizeMarker, pre, tail);
  }

  /** `"1080x".split("x")` is `["1080", ""]`, and `int("")` fails. */
  lemma SizeFromTextMissingHeight()
    ensures SizeFromText("1080x") == (DefaultWidth, DefaultHeight)
  {
    assert "1080x" == "1080" + "x" + "";
    SplitAtOnlySeparator("1080", "x", "");
    assert ParseInt("") == None;
  }

  /** The text after the marker in that case, as `wm size` spaces it. */
  lemma SpacedMissingHeight()
    ensures !Contains(" 1080x", SizeMarker)
    ensures SizeFromText(Strip(" 1080x")) == (DefaultWidth, DefaultHeight)
  {
    NoOccurrenceWithoutFirstChar(" 1080x", SizeMarker);
    StripLeadingSpace("1080x");
    SizeFromTextMissingHeight();
  }

  /** A width without a height, `Physical size: 1080x`, is a parse failure. */
  lemma ScreenSizeMissingHeightFallsBack(pre: string)
    ensures GetScreenSize(pre + SizeMarker + " 1080x") == (DefaultWidth, DefaultHeight)
  {
    SpacedMissingHeight();
    ScreenSizeReadsAfterLastMarker(pre, " 1080x");
  }

  lemma ScreenSizeAfterMarkerAndSpace(text: string)
    requires |text| > 0 && !IsSpace(text[0]) && !IsSpace(text[|text| - 1])
    requires !Contains(" " + text, SizeMarker)
    ensures GetScreenSize(SizeMarker + " " + text) == SizeFromText(text)
  {
    assert SizeMarker + " " + text == "" + SizeMarker + (" " + text);
    ScreenSizeReadsAfterLastMarker("", " " + text);
    StripLeadingSpace(text);
  }

  /** Reading the size from `Physical size: ` followed by `text`, where `text`
      starts and ends with a digit and has no `P`, is reading `text`. */
  lemma ScreenSizeAfterMarker(text: string)
    requires |text| > 0 && IsDigit(text[0]) && IsDigit(text[|text| - 1]) && Lacks(text, 'P')
    ensures GetScreenSize(SizeMarker + " " + text) == SizeFromText(text)
  {
    LacksConcat(" ", text, 'P');
    NoOccurrenceWithoutFirstChar(" " + text, SizeMarker);
    ScreenSizeAfterMarkerAndSpace(text);
  }

  /** `WxH` as `str()` writes it reads back as the pair. */
  lemma SizeFromTextCanonical(w: nat, h: nat)
    ensures SizeFromText(NatToStr(w) + "x" + NatToStr(h)) == (w, h)
  {
    NatToStrLacks(w);
    NatToStrLacks(h);
    SplitAtOnlySeparator(NatToStr(w), "x", NatToStr(h));
    ParseIntOfNatToStr(w);
    ParseIntOfNatToStr(h);
  }

  /** For output of the documented form `Physical size: WxH`, the size is read back. */
  lemma ScreenSizeOfCanonicalOutput(w: nat, h: nat)
    ensures GetScreenSize(SizeMarker + " " + NatToStr(w) + "x" + NatToStr(h)) == (w, h)
  {
    var a, b := NatToStr(w), NatToStr(h);
    var x := a + "x" + b;
    assert SizeMarker + " " + a + "x" + b == SizeMarker + " " + x;
    assert x[0] == a[0] && x[|x| - 1] == b[|b| - 1];
    NatToStrLacks(w);
    NatToStrLacks(h);
    LacksConcat(a, "x", 'P');
    LacksConcat(a + "x", b, 'P');
    ScreenSizeAfterMarker(x);
    SizeFromTextCanonical(w, h);
  }

  /** The second line `wm size` prints when the display size is overridden. */
  const OverrideLine: string := "\nOverride size: "

  /** Text with two `x` does not unpack into two values. */
  lemma SizeFromTextTwoSeparators(a: string, b: string, c: string)
    requires Lacks(a, 'x') && Lacks(b, 'x') && Lacks(c, 'x')
    ensures SizeFromText(a + "x" + b + "x" + c) == (DefaultWidth, DefaultHeight)
  {
    assert a + "x" + b + "x" + c == a + "x" + (b + "x" + c);
    SplitAfterFirst(a, "x", b + "x" + c);
    SplitAtOnlySeparator(b, "x", c);
  }

  /** The digits of two sizes joined by the override line hold no `P` and no `x`. */
  lemma OverrideMiddleLacks(h: nat, ow: nat)
    ensures Lacks(NatToStr(h) + OverrideLine + NatToStr(ow), 'P')
    ensures Lacks(NatToStr(h) + OverrideLine + NatToStr(ow), 'x')
  {
    NatToStrLacks(h);
    NatToStrLacks(ow);
    assert Lacks(OverrideLine, 'P') && Lacks(OverrideLine, 'x');
    LacksConcat(NatToStr(h), OverrideLine, 'P');
    LacksConcat(NatToStr(h) + OverrideLine, NatToStr(ow), 'P');
    LacksConcat(NatToStr(h), OverrideLine, 'x');
    LacksConcat(NatToStr(h) + OverrideLine, NatToStr(ow), 'x');
  }

  /** Three pieces without `P` joined by `x` hold no `P`. */
  lemma JoinedByXLacksP(a: string, b: string, c: string)
    requires Lacks(a, 'P') && Lacks(b, 'P') && Lacks(c, 'P')
    ensures Lacks(a + "x" + b + "x" + c, 'P')
  {
    LacksConcat(a, "x", 'P');
    LacksConcat(a + "x", b, 'P');
    LacksConcat(a + "x" + b, "x", 'P');
    LacksConcat(a + "x" + b + "x", c, 'P');
  }

  /** On a device whose display size is overridden, `wm size` prints the
      override line after the physical size. The text after the marker then
      holds two `x`, the unpacking fails and 1080x1920 is used instead of
      either size. */
  lemma ScreenSizeWithOverrideFallsBack(w: nat, h: nat, ow: nat, oh: nat)
    ensures GetScreenSize(SizeMarker + " " + (NatToStr(w) + "x" + (NatToStr(h) + OverrideLine + NatToStr(ow))
                                              + "x" + NatToStr(oh))) == (DefaultWidth, DefaultHeight)
  {
    var a, c := NatToStr(w), NatToStr(oh);
    var b := NatToStr(h) + OverrideLine + NatToStr(ow);
    var x := a + "x" + b + "x" + c;
    assert x[0] == a[0] && x[|x| - 1] == c[|c| - 1];
    NatToStrLacks(w);
    NatToStrLacks(oh);
    OverrideMiddleLacks(h, ow);
    JoinedByXLacksP(a, b, c);
    ScreenSizeAfterMarker(x);
    SizeFromTextTwoSeparators(a, b, c);
  }

  // ---------------------------------------------------------------- unlocking

  const KeyPower: int := 26
  const KeyMenu: int := 82
  const KeyEnter: int := 66

  /** What the device helpers send or log. */
  datatype DeviceAction =
    | Key(code: int)                                              // input keyevent
    | InputSwipe(x1: int, y1: int, x2: int, y2: int, ms: int)     // input swipe
    | InputText(text: string)                                     // input text
    | NoUnlockWarning                                             // logged warning

  /** `turn_on_screen`: power, then menu. */
  function TurnOnScreen(): seq<DeviceAction> {
    [Key(KeyPower), Key(KeyMenu)]
  }

  /** `swipe_to_unlock`: a fixed upward swipe. */
  const UnlockSwipe: DeviceAction := InputSwipe(300, 1000, 300, 500, 100)

  /** `enter_pin`: the PIN as text, then enter. */
  function EnterPin(pin: string): seq<DeviceAction> {
    [InputText(pin), Key(KeyEnter)]
  }

  /** `turn_off_screen`: power. */
  function TurnOffScreen(): seq<DeviceAction> {
    [Key(KeyPower)]
  }

  /** The PIN branch is taken for method "pin" with a non-empty PIN. */
  predicate UsesPin(pin: string, unlockMethod: string) {
    unlockMethod == "pin" && |pin| > 0
  }

  /** `unlock_device`: the screen is always woken first. The PIN is typed
      only for method "pin" with a non-empty PIN, after the unlock swipe and
      directly followed by Enter; "no_pin" only swipes; anything else,
      including "pin" without a PIN, only logs a warning. No text other than
      the PIN is ever typed. */
  function UnlockDevice(pin: string, unlockMethod: string): (acts: seq<DeviceAction>)
    ensures |acts| >= 3 && acts[..2] == TurnOnScreen()
    ensures UsesPin(pin, unlockMethod) <==> InputText(pin) in acts
    ensures forall i :: 0 <= i < |acts| && acts[i].InputText? ==> acts[i].text == pin && UsesPin(pin, unlockMethod)
    ensures UnlockSwipe in acts <==> UsesPin(pin, unlockMethod) || unlockMethod == "no_pin"
    ensures NoUnlockWarning in acts <==> !UsesPin(pin, unlockMethod) && unlockMethod != "no_pin"
    ensures forall i, j :: 0 <= i < |acts| && 0 <= j < |acts| && acts[i] == UnlockSwipe && acts[j].InputText? ==> i < j
    ensures forall j :: 0 <= j < |acts| && acts[j].InputText? ==> j + 1 < |acts| && acts[j + 1] == Key(KeyEnter)
    ensures Key(KeyEnter) in acts <==> UsesPin(pin, unlockMethod)
    ensures |acts| == if UsesPin(pin, unlockMethod) then 5 else 3
  {
    if UsesPin(pin, unlockMethod) then
      TurnOnScreen() + [UnlockSwipe] + EnterPin(pin)
    else if unlockMethod == "no_pin" then
      TurnOnScreen() + [UnlockSwipe]
    else
      TurnOnScreen() + [NoUnlockWarning]
  }
}

=== FILE: gestures.dfy ===
/**
  The coordinate computation of `perform_clicks` and `do_scroll`. Screen
  sizes are integers (the size parser accepts any `int()`); `int(n * 0.15)`
  and the like are read as the exact rational `n * 15 / 100` truncated toward
  zero. The pointer moves, clicks and the ADB swipe itself are actuation and
  are not part of this module.
*/
module Gestures {
  import opened Sampler

  /** `int(n * p / 100)`: `int()` truncates toward zero, so the result is the
      largest integer not above the exact product for a non-negative size and
      the smallest not below it for a negative one. */
  function Percent(n: int, p: nat): (r: int)
    ensures n >= 0 ==> 0 <= 100 * r <= n * p < 100 * (r + 1)
    ensures n < 0 ==> 100 * (r - 1) < n * p <= 100 * r <= 0
  {
    if n >= 0 then n * p / 100 else -((-n) * p / 100)
  }

  lemma MulMonotone(n: nat, p: nat, q: nat)
    requires p <= q
    ensures n * p <= n * q
  {
    assert n * q == n * p + n * (q - p);
  }

  lemma DivMonotone(a: nat, b: nat)
    requires a <= b
    ensures a / 100 <= b / 100
  {
    assert a == 100 * (a / 100) + a % 100;
    assert b == 100 * (b / 100) + b % 100;
  }

  /** For a non-negative size, a larger percentage never gives a smaller
      coordinate, and no percentage up to 100 leaves the screen. */
  lemma PercentMonotone(n: int, p: nat, q: nat)
    requires n >= 0 && p <= q <= 100
    ensures 0 <= Percent(n, p) <= Percent(n, q) <= n
  {
    MulMonotone(n, p, q);
    MulMonotone(n, q, 100);
    DivMonotone(n * p, n * q);
    DivMonotone(n * q, n * 100);
    assert n * 100 / 100 == n;
  }

  lemma PercentChain(n: int, p: nat, q: nat, r: nat)
    requires p <= q <= r <= 100
    ensures n >= 0 ==> 0 <= Percent(n, p) <= Percent(n, q) <= Percent(n, r) <= n
  {
    if n >= 0 {
      PercentMonotone(n, p, q);
      PercentMonotone(n, q, r);
    }
  }

  datatype Point = Point(x: int, y: int)

  /** An axis-aligned rectangle, bounds included. */
  datatype Box = Box(xMin: int, xMax: int, yMin: int, yMax: int)

  predicate InBox(p: Point, b: Box) {
    b.xMin <= p.x <= b.xMax && b.yMin <= p.y <= b.yMax
  }

  /** One list of candidates per call of `bounded_cauchy`. */
  predicate ValidDraws(d: seq<int>) {
    |d| == Attempts
  }

  // ---------------------------------------------------------------- clicks

  /** The candidates for the two `bounded_cauchy` calls of `perform_clicks`. */
  datatype ClickDraws = ClickDraws(xs: seq<int>, ys: seq<int>)

  predicate ValidClickDraws(d: ClickDraws) {
    ValidDraws(d.xs) && ValidDraws(d.ys)
  }

  /** The click target: 15% to 50% of each axis. */
  function ClickBox(w: int, h: int): Box {
    Box(Percent(w, 15), Percent(w, 50), Percent(h, 15), Percent(h, 50))
  }

  /** The point `perform_clicks` moves to and clicks twice: each coordinate
      is the first of its candidates inside the click box, or 30% of the axis
      when every candidate misses. It always lies in the click box, hence
      inside `[0, w] x [0, h]`. */
  function ClickPoint(w: int, h: int, d: ClickDraws): (p: Point)
    requires ValidClickDraws(d)
    ensures w >= 0 && h >= 0 ==> InBox(p, ClickBox(w, h))
    ensures w >= 0 && h >= 0 ==> 0 <= p.x <= w && 0 <= p.y <= h
    ensures w >= 0 && (forall j :: 0 <= j < |d.xs| ==> !InBounds(d.xs[j], Percent(w, 15), Percent(w, 50))) ==>
              p.x == Percent(w, 30)
    ensures h >= 0 && (forall j :: 0 <= j < |d.ys| ==> !InBounds(d.ys[j], Percent(h, 15), Percent(h, 50))) ==>
              p.y == Percent(h, 30)
    ensures SampledFrom(p.x, Percent(w, 30), d.xs, Percent(w, 15), Percent(w, 50))
    ensures SampledFrom(p.y, Percent(h, 30), d.ys, Percent(h, 15), Percent(h, 50))
  {
    PercentChain(w, 15, 30, 50);
    PercentChain(h, 15, 30, 50);
    var b := ClickBox(w, h);
    Point(BoundedCauchy(Percent(w, 30), d.xs, b.xMin, b.xMax),
          BoundedCauchy(Percent(h, 30), d.ys, b.yMin, b.yMax))
  }

  // ---------------------------------------------------------------- scroll

  /** The candidates for the `bounded_cauchy` calls of `do_scroll` (the last
      list is used only by the re-sample) and the drawn swipe duration. */
  datatype ScrollDraws = ScrollDraws(
    x1s: seq<int>, x2s: seq<int>, y1s: seq<int>, y2s: seq<int>, y2Retry: seq<int>,
    duration: int)

  /** `random.randint(100, 200)` lies in its range. */
  predicate ValidScrollDraws(d: ScrollDraws) {
    && ValidDraws(d.x1s) && ValidDraws(d.x2s)
    && ValidDraws(d.y1s) && ValidDraws(d.y2s) && ValidDraws(d.y2Retry)
    && 100 <= d.duration <= 200
  }

  /** The arguments of `adb shell input swipe x1 y1 x2 y2 duration`. */
  datatype Swipe = Swipe(x1: int, y1: int, x2: int, y2: int, duration: int)

  /** Both ends of a scroll: 30% to 70% of the width, 30% to 95% of the height. */
  function ScrollBox(w: int, h: int): Box {
    Box(Percent(w, 30), Percent(w, 70), Percent(h, 30), Percent(h, 95))
  }

  /** The end point's first sample, around 40% of the height. */
  function FirstEndY(h: int, d: ScrollDraws): int
    requires ValidScrollDraws(d)
  {
    BoundedCauchy(Percent(h, 40), d.y2s, Percent(h, 30), Percent(h, 95))
  }

  /** The swipe `do_scroll` sends: start around (50%, 85%), end around
      (50%, 40%), each coordinate the first of its candidates inside the
      scroll box, and the drawn duration. Both ends lie in the scroll box; the end point is re-sampled
      once, and only, when its first sample lies below the start on screen
      (a larger y); an upward swipe therefore needs both samples to miss. */
  function ScrollSwipe(w: int, h: int, d: ScrollDraws): (s: Swipe)
    requires ValidScrollDraws(d)
    ensures w >= 0 && h >= 0 ==> InBox(Point(s.x1, s.y1), ScrollBox(w, h))
    ensures w >= 0 && h >= 0 ==> InBox(Point(s.x2, s.y2), ScrollBox(w, h))
    ensures s.duration == d.duration && 100 <= s.duration <= 200
    ensures SampledFrom(s.x1, Percent(w, 50), d.x1s, Percent(w, 30), Percent(w, 70))
    ensures SampledFrom(s.x2, Percent(w, 50), d.x2s, Percent(w, 30), Percent(w, 70))
    ensures SampledFrom(s.y1, Percent(h, 85), d.y1s, Percent(h, 30), Percent(h, 95))
    ensures s.y1 >= FirstEndY(h, d) ==> s.y2 == FirstEndY(h, d)
    ensures s.y1 < FirstEndY(h, d) ==> s.y2 == BoundedCauchy(Percent(h, 40), d.y2Retry, Percent(h, 30), Percent(h, 95))
    ensures s.y1 < s.y2 ==> s.y1 < FirstEndY(h, d) && s.y2 == BoundedCauchy(Percent(h, 40), d.y2Retry, Percent(h, 30), Percent(h, 95))
  {
    PercentChain(w, 30, 50, 70);
    PercentChain(h, 30, 85, 95);
    var b := ScrollBox(w, h);
    var x1 := BoundedCauchy(Percent(w, 50), d.x1s, b.xMin, b.xMax);
    var x2 := BoundedCauchy(Percent(w, 50), d.x2s, b.xMin, b.xMax);
    var y1 := BoundedCauchy(Percent(h, 85), d.y1s, b.yMin, b.yMax);
    var y2 := FirstEndY(h, d);
    var y2' := if y1 < y2 then BoundedCauchy(Percent(h, 40), d.y2Retry, b.yMin, b.yMax) else y2;
    Swipe(x1, y1, x2, y2', d.duration)
  }

  /** The re-sample is a best effort: on a 1080x1920 screen, a start at 700
      and end samples at 800 and then 900 still give an upward swipe. */
  lemma ScrollMayStillGoUpward()
    ensures var d := ScrollDraws(seq(Attempts, _ => 540), seq(Attempts, _ => 540),
                                 seq(Attempts, _ => 700), seq(Attempts, _ => 800),
                                 seq(Attempts, _ => 900), 150);
            ScrollSwipe(1080, 1920, d).y1 < ScrollSwipe(1080, 1920, d).y2
  {
    var d := ScrollDraws(seq(Attempts, _ => 540), seq(Attempts, _ => 540),
                         seq(Attempts, _ => 700), seq(Attempts, _ => 800),
                         seq(Attempts, _ => 900), 150);
    assert IsFirstInBounds(d.y1s, 0, 576, 1824);
    assert IsFirstInBounds(d.y2s, 0, 576, 1824);
    assert IsFirstInBounds(d.y2Retry, 0, 576, 1824);
  }
}

=== FILE: label_counts.dfy ===
/**
  The label counters and their CSV store (`load_label_counts`,
  `save_label_counts` and the increment done by `classify_and_click`).
  A CSV file is seen as the rows the `csv` module writes and reads back;
  quoting is below this level of abstraction.
*/
module LabelCounts {
  import opened Basics
  import opened PyStr
  import opened PyDict

  /** Label → number of times it was detected, in insertion order. */
  type Counts = Dict<string, int>

  /** One CSV row: its list of fields. */
  type Row = seq<string>

  /** The counts file as the loader finds it: missing, failing to open, or readable. */
  datatype CountFile = Absent | Unreadable | Present(rows: seq<Row>)

  /** `counts[label] = counts.get(label, 0) + 1`: the label's count goes up by
      one (a new label starts at one) and every other label keeps its count. */
  function Increment(c: Counts, name: string): (r: Counts)
    ensures Lookup(r, name) == Some(Get(c, name, 0) + 1)
    ensures name in Keys(c) ==> Lookup(r, name) == Some(Lookup(c, name).value + 1)
    ensures name !in Keys(c) ==> Lookup(r, name) == Some(1)
    ensures forall other :: other != name ==> Lookup(r, other) == Lookup(c, other)
    ensures Keys(r) == Keys(c) + {name}
    ensures UniqueKeys(c) ==> UniqueKeys(r)
  {
    Put(c, name, Get(c, name, 0) + 1)
  }

  /** A row the loader keeps: exactly two fields, the second an integer for `int()`. */
  function ParseRow(row: Row): Option<(string, int)> {
    if |row| != 2 then None
    else match ParseInt(row[1])
      case Some(n) => Some((row[0], n))
      case None => None
  }

  /** One turn of the loader's loop: a kept row assigns its count to its label. */
  function LoadStep(acc: Counts, row: Row): Counts {
    match ParseRow(row)
    case Some(e) => Put(acc, e.0, e.1)
    case None => acc
  }

  /** The loader's loop over `rows`, starting from `acc`. */
  function LoadFrom(acc: Counts, rows: seq<Row>): (r: Counts)
    ensures UniqueKeys(acc) ==> UniqueKeys(r)
    decreases |rows|
  {
    if |rows| == 0 then acc else LoadFrom(LoadStep(acc, rows[0]), rows[1..])
  }

  /** `load_label_counts`: an absent or unopenable file gives the empty dict. */
  function Load(f: CountFile): (r: Counts)
    ensures UniqueKeys(r)
    ensures !f.Present? ==> r == []
  {
    match f
    case Present(rows) => LoadFrom([], rows)
    case _ => []
  }

  /** `save_label_counts`: one `[label, str(count)]` row per entry, in dict order. */
  function SaveRows(c: Counts): (rows: seq<Row>)
    ensures |rows| == |c|
    ensures forall i :: 0 <= i < |rows| ==> |rows[i]| == 2 && rows[i][0] == c[i].0
    decreases |c|
  {
    if |c| == 0 then [] else [[c[0].0, IntToStr(c[0].1)]] + SaveRows(c[1..])
  }

  /** Reference meaning of the loader for one label: the count on the LAST
      kept row that names it, if any. */
  function LastCount(rows: seq<Row>, name: string): Option<int>
    decreases |rows|
  {
    if |rows| == 0 then None
    else
      var prev := LastCount(rows[..|rows| - 1], name);
      match ParseRow(rows[|rows| - 1])
      case Some(e) => if e.0 == name then Some(e.1) else prev
      case None => prev
  }

  lemma {:induction false} LoadFromLast(acc: Counts, rows: seq<Row>)
    requires |rows| > 0
    ensures LoadFrom(acc, rows) == LoadStep(LoadFrom(acc, rows[..|rows| - 1]), rows[|rows| - 1])
    decreases |rows|
  {
    var init := rows[..|rows| - 1];
    if |rows| == 1 {
      assert init == [] && rows[1..] == [];
    } else {
      var a := LoadStep(acc, rows[0]);
      var tail := rows[1..];
      assert LoadFrom(acc, rows) == LoadFrom(a, tail);
      assert init[0] == rows[0];
      assert LoadFrom(acc, init) == LoadFrom(a, init[1..]);
      LoadFromLast(a, tail);
      assert tail[..|tail| - 1] == init[1..];
      assert tail[|tail| - 1] == rows[|rows| - 1];
    }
  }

  lemma {:induction false} LoadFromLastWins(acc: Counts, rows: seq<Row>, name: string)
    ensures Lookup(LoadFrom(acc, rows), name) ==
            (match LastCount(rows, name) case Some(n) => Some(n) case None => Lookup(acc, name))
    decreases |rows|
  {
    if |rows| > 0 {
      LoadFromLast(acc, rows);
      LoadFromLastWins(acc, rows[..|rows| - 1], name);
    }
  }

  /** Loading keeps, for every label, the count of the last well-formed row
      naming it; rows of the wrong length or with a non-integer count have no
      effect, and a label no kept row names is absent. */
  lemma LoadLastWins(rows: seq<Row>, name: string)
    ensures Lookup(Load(Present(rows)), name) == LastCount(rows, name)
  {
    LoadFromLastWins([], rows, name);
  }

  /** Loading the rows saved from `c` first appends `c[0]`, when its label is new. */
  lemma LoadSavedHead(acc: Counts, c: Counts)
    requires |c| > 0
    requires c[0].0 !in Keys(acc)
    ensures LoadFrom(acc, SaveRows(c)) == LoadFrom(acc + [c[0]], SaveRows(c[1..]))
  {
    var rows := SaveRows(c);
    assert rows[0] == [c[0].0, IntToStr(c[0].1)];
    assert rows[1..] == SaveRows(c[1..]);
    ParseIntOfIntToStr(c[0].1);
    assert ParseRow(rows[0]) == Some(c[0]);
  }

  lemma KeysAfterAppend(acc: Counts, c: Counts)
    requires |c| > 0 && UniqueKeys(c)
    requires Keys(acc) !! Keys(c)
    ensures c[0].0 !in Keys(acc)
    ensures Keys(acc + [c[0]]) !! Keys(c[1..])
  {
    assert Put(acc, c[0].0, c[0].1) == acc + [c[0]];
  }

  lemma ConcatHead<T>(a: seq<T>, c: seq<T>)
    requires |c| > 0
    ensures a + [c[0]] + c[1..] == a + c
  {
    assert [c[0]] + c[1..] == c;
  }

  lemma {:induction false} LoadFromSaved(acc: Counts, c: Counts)
    requires UniqueKeys(c)
    requires Keys(acc) !! Keys(c)
    ensures LoadFrom(acc, SaveRows(c)) == acc + c
    decreases |c|
  {
    if |c| == 0 {
      assert acc + c == acc;
    } else {
      KeysAfterAppend(acc, c);
      LoadSavedHead(acc, c);
      LoadFromSaved(acc + [c[0]], c[1..]);
      ConcatHead(acc, c);
    }
  }

  /** Loading what was saved gives back the same dict, entry order included. */
  lemma SaveLoadRoundTrip(c: Counts)
    requires UniqueKeys(c)
    ensures Load(Present(SaveRows(c))) == c
  {
    LoadFromSaved([], c);
    assert [] + c == c;
  }
}

=== FILE: perception.dfy ===
/**
  The decision part of `classify_and_click`: the classifier's probability
  vector over the fixed label list is an input (a frame whose capture or
  inference raised is `Failed`); the label with the first maximal
  probability is taken, and only a probability strictly above 0.51 counts
  as a detection.
*/
module Perception {
  import opened Basics
  import opened PyDict
  import opened LabelCounts

  /** The label vocabulary handed to the classifier, in its order. */
  const Labels: seq<string> := [
    "love", "couple", "romantic", "kissing", "fighting", "judo", "mma", "boxing", "jiujitsu",
    "programming", "robotics", "pcb", "microcontrollers", "party", "friendship", "motorcycles",
    "motogp", "motocross", "couple goals", "wedding", "date", "heart", "affection", "intimacy",
    "passion", "champion", "kickboxing", "wrestling", "combat sports", "technology", "electronics",
    "automation", "mechanical engineering", "arduino", "raspberry pi", "self-driving cars", "ai",
    "virtual reality", "coding", "programmer", "developer", "guitar", "dancing", "love story",
    "romantic dinner", "long distance relationship", "relationship goals", "friends",
    "bachelor party", "dance floor", "nightlife", "motorcycle racing", "dirt bike",
    "off-road racing", "rally", "superbike", "rider", "helmet", "adventure sports"
  ]

  /** A detection needs a probability strictly above this. */
  const Threshold: real := 0.51

  /** What the screenshot and the classifier produced for one frame. */
  datatype Frame = Failed | Probabilities(p: seq<real>)

  /** A detected label and its probability, or nothing. */
  datatype Decision = NoMatch | Match(name: string, confidence: real)

  /** `k` is the first index holding the largest probability. */
  predicate IsFirstMax(p: seq<real>, k: int) {
    && 0 <= k < |p|
    && (forall j :: 0 <= j < |p| ==> p[j] <= p[k])
    && (forall j :: 0 <= j < k ==> p[j] < p[k])
  }

  /** `torch.argmax`: the first index of the maximum. */
  function ArgMax(p: seq<real>): (k: nat)
    requires |p| > 0
    ensures IsFirstMax(p, k)
    decreases |p|
  {
    if |p| == 1 then 0
    else
      var k := ArgMax(p[..|p| - 1]);
      if p[|p| - 1] > p[k] then |p| - 1 else k
  }

  /** There is only one first maximum. */
  lemma FirstMaxUnique(p: seq<real>, k1: int, k2: int)
    requires IsFirstMax(p, k1) && IsFirstMax(p, k2)
    ensures k1 == k2
  {
    assert p[k1] == p[k2];
  }

  /** The decision on a frame: a failure, an empty vector, or an index past
      the label list (the `IndexError` path) give no match; otherwise the
      first maximal label matches exactly when its probability exceeds 0.51. */
  function Decide(f: Frame): (d: Decision)
    ensures d.Match? <==>
              f.Probabilities? && exists k :: IsFirstMax(f.p, k) && k < |Labels| && f.p[k] > Threshold
    ensures d.Match? ==> forall k :: IsFirstMax(f.p, k) ==> d == Match(Labels[k], f.p[k])
  {
    match f
    case Failed => NoMatch
    case Probabilities(p) =>
      if |p| == 0 then NoMatch
      else
        var k := ArgMax(p);
        if k < |Labels| && p[k] > Threshold then Match(Labels[k], p[k]) else NoMatch
  }

  /** The result of `classify_and_click` and the counters it leaves behind. */
  datatype Classified = Classified(found: bool, counts: Counts)

  /** What `classify_and_click` does once the decision is made: a detection
      raises its label's count by one and leaves every other count alone,
      even when the clicks then raise (the increment comes first); the
      result is true only for a detection whose clicks went through. Without
      a detection nothing changes. */
  function Record(d: Decision, c: Counts, clickRaises: bool): (r: Classified)
    ensures r.found <==> d.Match? && !clickRaises
    ensures d.Match? ==>
              && Lookup(r.counts, d.name) == Some(Get(c, d.name, 0) + 1)
              && forall other :: other != d.name ==> Lookup(r.counts, other) == Lookup(c, other)
    ensures d.NoMatch? ==> r.counts == c
    ensures UniqueKeys(c) ==> UniqueKeys(r.counts)
  {
    match d
    case NoMatch => Classified(false, c)
    case Match(name, _) => Classified(!clickRaises, Increment(c, name))
  }

  /** `classify_and_click`: the decision on the frame, then its bookkeeping. */
  function ClassifyAndClick(f: Frame, c: Counts, clickRaises: bool): (r: Classified)
    ensures r.found <==> Decide(f).Match? && !clickRaises
    ensures Decide(f).Match? ==>
              && Lookup(r.counts, Decide(f).name) == Some(Get(c, Decide(f).name, 0) + 1)
              && forall other :: other != Decide(f).name ==> Lookup(r.counts, other) == Lookup(c, other)
    ensures Decide(f).NoMatch? ==> r.counts == c
    ensures UniqueKeys(c) ==> UniqueKeys(r.counts)
  {
    Record(Decide(f), c, clickRaises)
  }

  /** A vector whose only large entry is at index `k`. */
  function Peak(k: nat, high: real, low: real): seq<real> {
    seq(|Labels|, i => if i == k then high else low)
  }

  /** A vector with one strictly largest entry is decided on that entry alone. */
  lemma DecidePeak(k: nat, high: real, low: real)
    requires k < |Labels| && low < high
    ensures Decide(Probabilities(Peak(k, high, low)))
            == if high > Threshold then Match(Labels[k], high) else NoMatch
  {
    var p := Peak(k, high, low);
    assert IsFirstMax(p, k);
    FirstMaxUnique(p, ArgMax(p), k);
  }

  /** Starting from no counts, a frame at 0.80 for "coding" gives
      {"coding": 1}; a following frame at 0.40 for it leaves that unchanged. */
  lemma CodingScenario()
    ensures ClassifyAndClick(Probabilities(Peak(38, 0.80, 0.2 / 58.0)), [], false)
            == Classified(true, [("coding", 1)])
    ensures ClassifyAndClick(Probabilities(Peak(38, 0.40, 0.6 / 58.0)), [("coding", 1)], false)
            == Classified(false, [("coding", 1)])
  {
    assert Labels[38] == "coding";
    DecidePeak(38, 0.80, 0.2 / 58.0);
    DecidePeak(38, 0.40, 0.6 / 58.0);
  }
}

=== FILE: pydict.dfy ===
/**
  A Python `dict` as the program uses it: an insertion-ordered list of
  entries with distinct keys. Assigning to a present key replaces its value
  in place; assigning to a new key appends it. A dict display `{k1: v1, ...}`
  inserts its pairs left to right, so of two equal keys the later value wins.
*/
module PyDict {
  import opened Basics

  type Dict<K, V> = seq<(K, V)>

  /** The keys of `d`. */
  function Keys<K, V>(d: Dict<K, V>): set<K>
    decreases |d|
  {
    if |d| == 0 then {} else {d[0].0} + Keys(d[1..])
  }

  /** No key appears twice. */
  predicate UniqueKeys<K(==), V>(d: Dict<K, V>)
    decreases |d|
  {
    |d| == 0 || (d[0].0 !in Keys(d[1..]) && UniqueKeys(d[1..]))
  }

  /** `d[k]` when present. */
  function Lookup<K(==), V>(d: Dict<K, V>, k: K): (r: Option<V>)
    ensures r.Some? <==> k in Keys(d)
    decreases |d|
  {
    if |d| == 0 then None
    else if d[0].0 == k then Some(d[0].1)
    else Lookup(d[1..], k)
  }

  /** `d.get(k, default)`. */
  function Get<K(==), V>(d: Dict<K, V>, k: K, default: V): V {
    match Lookup(d, k)
    case Some(v) => v
    case None => default
  }

  /** `d[k] = v`. */
  function Put<K(==,!new), V>(d: Dict<K, V>, k: K, v: V): (r: Dict<K, V>)
    ensures forall key :: Lookup(r, key) == if key == k then Some(v) else Lookup(d, key)
    ensures Keys(r) == Keys(d) + {k}
    ensures UniqueKeys(d) ==> UniqueKeys(r)
    ensures k !in Keys(d) ==> r == d + [(k, v)]
    ensures k in Keys(d) ==> |r| == |d|
    ensures |r| >= |d| && forall i :: 0 <= i < |d| ==> r[i].0 == d[i].0
    decreases |d|
  {
    if |d| == 0 then [(k, v)]
    else if d[0].0 == k then [(k, v)] + d[1..]
    else
      var rest := Put(d[1..], k, v);
      assert ([d[0]] + rest)[1..] == rest;
      assert k !in Keys(d) ==> [d[0]] + (d[1..] + [(k, v)]) == d + [(k, v)];
      [d[0]] + rest
  }

  /** The value of the last pair in `ps` whose key is `k`: the reference
      meaning of a dict display with repeated keys. */
  function LastValue<K(==), V>(ps: seq<(K, V)>, k: K): Option<V>
    decreases |ps|
  {
    if |ps| == 0 then None
    else if ps[|ps| - 1].0 == k then Some(ps[|ps| - 1].1)
    else LastValue(ps[..|ps| - 1], k)
  }

  /** A dict display `{ps[0].0: ps[0].1, ...}`: the pairs are inserted in order. */
  function FromPairs<K(==,!new), V>(ps: seq<(K, V)>): (d: Dict<K, V>)
    decreases |ps|
  {
    if |ps| == 0 then [] else Put(FromPairs(ps[..|ps| - 1]), ps[|ps| - 1].0, ps[|ps| - 1].1)
  }

  /** In a dict display, a repeated key keeps the value written last. */
  lemma {:induction false} FromPairsLastWins<K(!new), V>(ps: seq<(K, V)>, k: K)
    ensures Lookup(FromPairs(ps), k) == LastValue(ps, k)
    decreases |ps|
  {
    if |ps| > 0 {
      FromPairsLastWins(ps[..|ps| - 1], k);
    }
  }
}

=== FILE: pystr.dfy ===
/**
  The few Python string operations the program relies on: `str.strip()`,
  `str.split(sep)`, `sep.join(parts)`, `str(n)` for integers and `int(text)`.
  Whitespace is space, tab, newline, carriage return, vertical tab and form
  feed. Python's `str.strip()` also removes the separators U+001C to U+001F
  (which `int()` rejects) and Unicode whitespace such as U+0085, U+00A0 and
  U+2000 (which `int()` accepts around its digits); neither they nor Unicode
  decimal digits are modelled.
*/
module PyStr {
  import opened Basics

  predicate IsSpace(c: char) {
    c == ' ' || c == '\t' || c == '\n' || c == '\r' || c == '\U{000B}' || c == '\U{000C}'
  }

  predicate IsDigit(c: char) {
    '0' <= c <= '9'
  }

  // ---------------------------------------------------------------- strip

  /** `s.lstrip()`: the longest suffix of `s` that does not start with whitespace. */
  function LStrip(s: string): (r: string)
    ensures |r| <= |s| && r == s[|s| - |r|..]
    ensures forall i :: 0 <= i < |s| - |r| ==> IsSpace(s[i])
    ensures |r| > 0 ==> !IsSpace(r[0])
    decreases |s|
  {
    if |s| > 0 && IsSpace(s[0]) then LStrip(s[1..]) else s
  }

  /** `s.rstrip()`: the longest prefix of `s` that does not end with whitespace. */
  function RStrip(s: string): (r: string)
    ensures |r| <= |s| && r == s[..|r|]
    ensures forall i :: |r| <= i < |s| ==> IsSpace(s[i])
    ensures |r| > 0 ==> !IsSpace(r[|r| - 1])
    decreases |s|
  {
    if |s| > 0 && IsSpace(s[|s| - 1]) then RStrip(s[..|s| - 1]) else s
  }

  /** `r` is the slice of `s` from `k`, and everything outside it is whitespace. */
  predicate StrippedAt(s: string, r: string, k: int) {
    && 0 <= k && k + |r| <= |s| && r == s[k..k + |r|]
    && (forall i :: 0 <= i < k ==> IsSpace(s[i]))
    && (forall i :: k + |r| <= i < |s| ==> IsSpace(s[i]))
  }

  /** `s.strip()`: the result neither starts nor ends with whitespace, and a
      string that already has that shape is returned unchanged. */
  function Strip(s: string): (r: string)
    ensures |r| <= |s|
    ensures |r| > 0 ==> !IsSpace(r[0]) && !IsSpace(r[|r| - 1])
    ensures (|s| == 0 || (!IsSpace(s[0]) && !IsSpace(s[|s| - 1]))) ==> r == s
    ensures exists k :: StrippedAt(s, r, k)
  {
    var l := LStrip(s);
    var r := RStrip(l);
    var k := |s| - |l|;
    assert |r| > 0 ==> r[0] == l[0];
    assert r == s[k..k + |r|];
    assert forall i :: k + |r| <= i < |s| ==> s[i] == l[i - k];
    assert StrippedAt(s, r, k);
    r
  }

  // ---------------------------------------------------------------- split / join

  /** `sep` occurs in `s` starting at index `i`. */
  predicate OccursAt(s: string, sep: string, i: int) {
    0 <= i && i + |sep| <= |s| && s[i..i + |sep|] == sep
  }

  /** Python's `sep in s`. */
  predicate Contains(s: string, sep: string) {
    exists i :: 0 <= i <= |s| && OccursAt(s, sep, i)
  }

  /** The first occurrence of `sep` in `s` at or after index `i`. */
  function FindFrom(s: string, sep: string, i: nat): (r: Option<nat>)
    ensures r.Some? ==> i <= r.value && OccursAt(s, sep, r.value)
    ensures r.Some? ==> forall j :: i <= j < r.value ==> !OccursAt(s, sep, j)
    ensures r.None? ==> forall j :: i <= j ==> !OccursAt(s, sep, j)
    decreases |s| - i
  {
    if i + |sep| > |s| then None
    else if s[i..i + |sep|] == sep then Some(i)
    else FindFrom(s, sep, i + 1)
  }

  /** `sep.join(parts)`. */
  function Join(parts: seq<string>, sep: string): string
    decreases |parts|
  {
    if |parts| == 0 then ""
    else if |parts| == 1 then parts[0]
    else parts[0] + sep + Join(parts[1..], sep)
  }

  lemma JoinCons(head: string, rest: seq<string>, sep: string)
    requires |rest| >= 1
    ensures Join([head] + rest, sep) == head + sep + Join(rest, sep)
  {
    assert ([head] + rest)[1..] == rest;
  }

  lemma SplitAround(s: string, sep: string, i: nat)
    requires OccursAt(s, sep, i)
    ensures s == s[..i] + sep + s[i + |sep|..]
  {
    assert s == s[..i] + s[i..i + |sep|] + s[i + |sep|..];
  }

  /** A prefix of `s` that ends before the first occurrence of `sep` does not contain `sep`. */
  lemma PrefixBeforeFirstOccurrence(s: string, sep: string, i: nat)
    requires |sep| > 0 && i <= |s|
    requires forall j :: 0 <= j < i ==> !OccursAt(s, sep, j)
    ensures !Contains(s[..i], sep)
  {
    if Contains(s[..i], sep) {
      var j :| 0 <= j <= |s[..i]| && OccursAt(s[..i], sep, j);
      assert 0 <= j && j + |sep| <= i;
      assert s[..i][j..j + |sep|] == s[j..j + |sep|];
      assert OccursAt(s, sep, j);
      assert false;
    }
  }

  /** `s.split(sep)`: scans left to right for non-overlapping occurrences.
      Joining the pieces back gives `s`, no piece contains `sep`, and there is
      more than one piece exactly when `sep in s`. */
  function Split(s: string, sep: string): (parts: seq<string>)
    requires |sep| > 0
    ensures |parts| >= 1
    ensures Join(parts, sep) == s
    ensures forall k :: 0 <= k < |parts| ==> !Contains(parts[k], sep)
    ensures |parts| == 1 <==> !Contains(s, sep)
    decreases |s|
  {
    match FindFrom(s, sep, 0)
    case None =>
      assert !Contains(s, sep);
      [s]
    case Some(i) =>
      assert OccursAt(s, sep, i);
      PrefixBeforeFirstOccurrence(s, sep, i);
      var rest := Split(s[i + |sep|..], sep);
      JoinCons(s[..i], rest, sep);
      SplitAround(s, sep, i);
      [s[..i]] + rest
  }

  /** No proper suffix of `sep` is also a prefix of it, so two occurrences
      of `sep` never overlap. */
  predicate NoSelfOverlap(sep: string) {
    forall k :: 0 < k < |sep| ==> !IsBorder(sep, k)
  }

  /** Shifting `sep` by `k` lines it up with itself. */
  predicate IsBorder(sep: string, k: nat)
    requires k <= |sep|
  {
    sep[k..] == sep[..|sep| - k]
  }

  /** An occurrence of such a separator rules out another one starting inside it. */
  lemma NoOverlappingOccurrence(s: string, sep: string, i: nat, j: nat)
    requires NoSelfOverlap(sep) && OccursAt(s, sep, i) && i < j < i + |sep|
    ensures !OccursAt(s, sep, j)
  {
    var k := j - i;
    assert !IsBorder(sep, k);
    assert s[j..i + |sep|] == sep[k..];
    if j + |sep| <= |s| {
      assert s[j..j + |sep|][..|sep| - k] == s[j..i + |sep|];
    }
  }

  /** `s.split(sep)[-1]`: the text after the last cut that the left-to-right
      scan of `split` makes, or all of `s` when `sep` does not occur. */
  function LastPiece(s: string, sep: string): string
    requires |sep| > 0
    decreases |s|
  {
    match FindFrom(s, sep, 0)
    case None => s
    case Some(i) => LastPiece(s[i + |sep|..], sep)
  }

  /** The last element of a non-empty sequence. */
  function Last(xs: seq<string>): string
    requires |xs| > 0
  {
    xs[|xs| - 1]
  }

  /** `LastPiece` is the last element of `Split`. */
  lemma {:induction false} LastPieceOfSplit(s: string, sep: string)
    requires |sep| > 0
    ensures Last(Split(s, sep)) == LastPiece(s, sep)
    decreases |s|
  {
    var f := FindFrom(s, sep, 0);
    if f.None? {
      assert Split(s, sep) == [s];
    } else {
      var after := s[f.value + |sep|..];
      var rest := Split(after, sep);
      SplitStep(s, sep, f.value);
      LastPieceStep(s, sep, f.value);
      LastOfCons(s[..f.value], rest);
      LastPieceOfSplit(after, sep);
    }
  }

  /** The text after the last occurrence of a separator that cannot overlap
      itself is what `s.split(sep)[-1]` gives. */
  lemma {:induction false} LastPieceAfterLastSeparator(sep: string, pre: string, tail: string)
    requires |sep| > 0 && NoSelfOverlap(sep) && !Contains(tail, sep)
    ensures LastPiece(pre + sep + tail, sep) == tail
    decreases |pre|
  {
    var s := pre + sep + tail;
    var i := FirstCut(sep, pre, tail);
    LastPieceStep(s, sep, i);
    var after := s[i + |sep|..];
    if i == |pre| {
      SuffixAfterTwo(pre, sep, tail);
      assert after == tail;
      LastPieceWhole(tail, sep);
    } else {
      var rest := pre[i + |sep|..];
      SuffixOfThree(pre, sep, tail, i + |sep|);
      assert after == rest + sep + tail;
      LastPieceAfterLastSeparator(sep, rest, tail);
    }
  }

  /** One cut of `LastPiece`. */
  lemma LastPieceStep(s: string, sep: string, i: nat)
    requires |sep| > 0 && FindFrom(s, sep, 0) == Some(i)
    ensures LastPiece(s, sep) == LastPiece(s[i + |sep|..], sep)
  {
  }

  /** Without an occurrence there is nothing to cut. */
  lemma LastPieceWhole(t: string, sep: string)
    requires |sep| > 0 && !Contains(t, sep)
    ensures LastPiece(t, sep) == t
  {
  }

  /** `split` cuts at the first occurrence it finds. */
  lemma SplitStep(s: string, sep: string, i: nat)
    requires |sep| > 0 && FindFrom(s, sep, 0) == Some(i)
    ensures Split(s, sep) == [s[..i]] + Split(s[i + |sep|..], sep)
  {
  }

  /** The last element of `[x] + rest` is the last of `rest`. */
  lemma LastOfCons(x: string, rest: seq<string>)
    requires |rest| > 0
    ensures Last([x] + rest) == Last(rest)
  {
  }

  lemma SuffixOfThree(a: string, b: string, c: string, k: nat)
    requires k <= |a|
    ensures (a + b + c)[k..] == a[k..] + b + c
  {
  }

  lemma SuffixAfterTwo(a: string, b: string, c: string)
    ensures (a + b + c)[|a| + |b|..] == c
  {
  }

  /** In `pre + sep + tail` the first occurrence of a separator that cannot
      overlap itself is the one after `pre` or lies wholly inside `pre`. */
  lemma FirstCut(sep: string, pre: string, tail: string) returns (i: nat)
    requires |sep| > 0 && NoSelfOverlap(sep)
    ensures FindFrom(pre + sep + tail, sep, 0) == Some(i)
    ensures i == |pre| || i + |sep| <= |pre|
  {
    var s := pre + sep + tail;
    assert s[|pre|..|pre| + |sep|] == sep;
    assert OccursAt(s, sep, |pre|);
    i := FindFrom(s, sep, 0).value;
    if i < |pre| && |pre| < i + |sep| {
      NoOverlappingOccurrence(s, sep, i, |pre|);
    }
  }

  // ---------------------------------------------------------------- integers

  function DigitValue(c: char): nat
    requires IsDigit(c)
  {
    (c as int) - ('0' as int)
  }

  function DigitChar(d: nat): (c: char)
    requires d < 10
    ensures IsDigit(c) && DigitValue(c) == d
  {
    (('0' as int) + d) as char
  }

  /** A base-10 integer body as `int()` accepts it: digits, with single
      underscores allowed between two digits. */
  predicate IsDigitRun(b: string) {
    && |b| > 0
    && IsDigit(b[0])
    && IsDigit(b[|b| - 1])
    && (forall i :: 0 <= i < |b| ==> IsDigit(b[i]) || b[i] == '_')
    && (forall i :: 0 <= i < |b| - 1 ==> b[i] == '_' ==> b[i + 1] != '_')
  }

  /** The value of a digit run, ignoring its underscores. */
  function RunValue(b: string): nat
    requires forall i :: 0 <= i < |b| ==> IsDigit(b[i]) || b[i] == '_'
    decreases |b|
  {
    if |b| == 0 then 0
    else if b[|b| - 1] == '_' then RunValue(b[..|b| - 1])
    else RunValue(b[..|b| - 1]) * 10 + DigitValue(b[|b| - 1])
  }

  /** `str(n)` for a natural number: its decimal digits, no leading zero. */
  function NatToStr(n: nat): (r: string)
    ensures |r| > 0
    ensures forall i :: 0 <= i < |r| ==> IsDigit(r[i])
    ensures |r| > 1 ==> r[0] != '0'
    decreases n
  {
    if n < 10 then [DigitChar(n)] else NatToStr(n / 10) + [DigitChar(n % 10)]
  }

  /** `str(n)` for any integer. */
  function IntToStr(n: int): string {
    if n < 0 then "-" + NatToStr(-n) else NatToStr(n)
  }

  /** `int(text)`: surrounding whitespace is ignored, one optional sign, then a
      digit run; anything else is the `ValueError` path, here `None`. */
  function ParseInt(s: string): (r: Option<int>)
    ensures r.Some? ==> |Strip(s)| > 0 && IsDigit(Strip(s)[|Strip(s)| - 1])
    ensures r.Some? && r.value < 0 ==> Strip(s)[0] == '-'
    ensures IsDigitRun(Strip(s)) ==> r == Some(RunValue(Strip(s)))
  {
    var t := Strip(s);
    if |t| > 0 && (t[0] == '-' || t[0] == '+') then
      var body := t[1..];
      if IsDigitRun(body) then
        var v: int := RunValue(body);
        Some(if t[0] == '-' then -v else v)
      else None
    else if IsDigitRun(t) then Some(RunValue(t))
    else None
  }

  lemma {:induction false} RunValueOfNatToStr(n: nat)
    ensures RunValue(NatToStr(n)) == n
    decreases n
  {
    if n >= 10 {
      var p := NatToStr(n / 10);
      var s := NatToStr(n);
      assert s == p + [DigitChar(n % 10)];
      assert s[..|s| - 1] == p;
      RunValueOfNatToStr(n / 10);
    }
  }

  lemma NatToStrIsDigitRun(n: nat)
    ensures IsDigitRun(NatToStr(n))
  {
    var d := NatToStr(n);
    assert forall i :: 0 <= i < |d| ==> IsDigit(d[i]);
  }

  lemma ParseIntOfNatToStr(n: nat)
    ensures ParseInt(NatToStr(n)) == Some(n)
  {
    var s := NatToStr(n);
    assert !IsSpace(s[0]) && !IsSpace(s[|s| - 1]);
    assert Strip(s) == s;
    assert s[0] != '-' && s[0] != '+';
    NatToStrIsDigitRun(n);
    RunValueOfNatToStr(n);
  }

  lemma ParseIntOfNegative(n: nat)
    requires n > 0
    ensures ParseInt("-" + NatToStr(n)) == Some(0 - n)
  {
    var d := NatToStr(n);
    var s := "-" + d;
    assert s[1..] == d;
    assert s[|s| - 1] == d[|d| - 1];
    assert !IsSpace(s[0]) && !IsSpace(s[|s| - 1]);
    assert Strip(s) == s;
    NatToStrIsDigitRun(n);
    RunValueOfNatToStr(n);
  }

  /** What `str()` writes, `int()` reads back. */
  lemma ParseIntOfIntToStr(n: int)
    ensures ParseInt(IntToStr(n)) == Some(n)
  {
    if n < 0 {
      var m: nat := -n;
      assert IntToStr(n) == "-" + NatToStr(m);
      ParseIntOfNegative(m);
    } else {
      assert IntToStr(n) == NatToStr(n);
      ParseIntOfNatToStr(n);
    }
  }
}

=== FILE: sampler.dfy ===
/**
  `bounded_cauchy`: rejection sampling of a heavy-tailed draw into an
  interval, with a clamped centre as the fallback. The random draws are an
  input: `draws[k]` is the k-th candidate `int(center + scale * cauchy_k)`,
  already truncated toward zero by `int()`.
*/
module Sampler {
  import opened Basics

  /** The number of candidates tried before falling back. */
  const Attempts: nat := 100

  predicate InBounds(v: int, lo: int, hi: int) {
    lo <= v <= hi
  }

  /** `max(min(v, hi), lo)`: the nearest point of `[lo, hi]` to `v`; with
      inverted bounds the outer `max` makes it `lo`. */
  function Clamp(v: int, lo: int, hi: int): (r: int)
    ensures lo <= hi ==> lo <= r <= hi
    ensures InBounds(v, lo, hi) ==> r == v
    ensures lo <= hi && v < lo ==> r == lo
    ensures lo <= hi && v > hi ==> r == hi
    ensures lo > hi ==> r == lo
  {
    Max(Min(v, hi), lo)
  }

  /** `draws[i]` is the first candidate that lies in `[lo, hi]`. */
  predicate IsFirstInBounds(draws: seq<int>, i: int, lo: int, hi: int) {
    && 0 <= i < |draws|
    && InBounds(draws[i], lo, hi)
    && forall j :: 0 <= j < i ==> !InBounds(draws[j], lo, hi)
  }

  /** The loop `for _ in range(100)`: the index of the first accepted candidate. */
  function FirstInBounds(draws: seq<int>, lo: int, hi: int): (r: Option<nat>)
    ensures r.Some? ==> IsFirstInBounds(draws, r.value, lo, hi)
    ensures r.None? ==> forall j :: 0 <= j < |draws| ==> !InBounds(draws[j], lo, hi)
    decreases |draws|
  {
    if |draws| == 0 then None
    else if InBounds(draws[0], lo, hi) then Some(0)
    else match FirstInBounds(draws[1..], lo, hi)
      case Some(i) => Some(i + 1)
      case None => None
  }

  /** `v` is what `bounded_cauchy` may return for these candidates: the first
      one inside `[lo, hi]` when there is one, the clamped centre otherwise. */
  predicate SampledFrom(v: int, center: int, draws: seq<int>, lo: int, hi: int) {
    if exists j :: 0 <= j < |draws| && InBounds(draws[j], lo, hi)
    then exists i :: 0 <= i < |draws| && IsFirstInBounds(draws, i, lo, hi) && v == draws[i]
    else v == Clamp(center, lo, hi)
  }

  /** `bounded_cauchy(center, scale, lo, hi)`: the first candidate inside
      `[lo, hi]`, or the clamped centre when none of the 100 is. Whenever the
      interval is non-empty the result lies in it. */
  function BoundedCauchy(center: int, draws: seq<int>, lo: int, hi: int): (r: int)
    requires |draws| == Attempts
    ensures lo <= hi ==> lo <= r <= hi
    ensures (exists j :: 0 <= j < |draws| && InBounds(draws[j], lo, hi)) ==>
              exists i :: IsFirstInBounds(draws, i, lo, hi) && r == draws[i]
    ensures (forall j :: 0 <= j < |draws| ==> !InBounds(draws[j], lo, hi)) ==>
              r == Clamp(center, lo, hi)
    ensures SampledFrom(r, center, draws, lo, hi)
  {
    match FirstInBounds(draws, lo, hi)
    case Some(i) => draws[i]
    case None => Clamp(center, lo, hi)
  }
}

=== FILE: scheduler.dfy ===
/**
  One poll of `scheduler_loop` as a state transition, and a run of polls.
  The wall-clock minute `now` (read once per poll), the two later absolute
  clock readings of `datetime.now()` and every random draw are inputs.
  Absolute clock readings are integers in microseconds, the resolution of
  `datetime`.
*/
module Scheduler {
  import opened Basics
  import opened PyDict
  import opened TimeOfDay

  /** The default `tolerance_minutes` of `is_within_time`. */
  const Tolerance: int := 5

  /** Fifteen minutes, in microseconds. */
  const Cooldown: int := 15 * 60 * 1000000

  /** Duration used when `now` is not exactly one of the trigger strings. */
  const DefaultDuration: int := 60

  /** What the loop carries from one poll to the next. */
  datatype State = State(triggers: TriggerSet, lastActivation: Option<int>)

  /** The three `random.randint` values of the duration table. */
  datatype DurationDraws = DurationDraws(start: int, end: int, bed: int)

  predicate ValidDurationDraws(d: DurationDraws) {
    45 <= d.start <= 60 && 160 <= d.end <= 180 && 75 <= d.bed <= 90
  }

  /** Everything one poll reads from the outside world. */
  datatype Poll = Poll(
    now: Minute,          // datetime.now().strftime("%H:%M")
    checkClock: int,      // datetime.now() in the cooldown test
    recordClock: int,     // datetime.now() stored as the last activation
    regen: TimeDraws,     // draws of a regeneration
    durations: DurationDraws)

  predicate ValidPoll(code: string, p: Poll) {
    DrawsFitCode(code, p.regen) && ValidDurationDraws(p.durations)
  }

  /** The start of `scheduler_loop`: the first trigger set, and no session
      started yet; an unknown school code stops the scheduler at once. */
  function StartScheduler(code: string, d: TimeDraws): (r: Option<State>)
    requires DrawsFitCode(code, d)
    ensures r.Some? <==> code == "u" || code == "h" || code == "p"
    ensures r.Some? ==> r.value.lastActivation.None?
    ensures r.Some? ==> r.value.triggers == GenerateSchoolTimes(code, d).value
  {
    match GenerateSchoolTimes(code, d)
    case None => None
    case Some(ts) => Some(State(ts, None))
  }

  // ---------------------------------------------------------------- regeneration

  /** `"00:30" <= now <= "00:40"`, compared as strings. */
  predicate RegenerationDue(now: Minute) {
    StrLe("00:30", Format(now)) && StrLe(Format(now), "00:40")
  }

  /** The string test is the minute range 00:30..00:40. */
  lemma RegenerationWindow(now: Minute)
    ensures RegenerationDue(now) <==> 30 <= now <= 40
  {
    assert Format(30) == "00:30";
    assert Format(40) == "00:40";
    FormatOrder(30, now);
    FormatOrder(now, 40);
  }

  /** The trigger set in force after the regeneration test of a poll. */
  function Regenerate(code: string, ts: TriggerSet, p: Poll): TriggerSet
    requires DrawsFitCode(code, p.regen)
  {
    if RegenerationDue(p.now) then
      match GenerateSchoolTimes(code, p.regen)
      case Some(regenerated) => regenerated
      case None => ts
    else ts
  }

  // ---------------------------------------------------------------- triggering

  /** Some trigger time is within the tolerance of `now`. */
  predicate AnyTriggerNear(now: Minute, ts: TriggerSet) {
    || IsWithinTime(now, ts.start, Tolerance)
    || IsWithinTime(now, ts.end, Tolerance)
    || IsWithinTime(now, ts.bed, Tolerance)
  }

  /** `not last_activation or now - last_activation > 15 minutes`. */
  predicate CooledDown(last: Option<int>, clock: int) {
    last.None? || clock - last.value > Cooldown
  }

  /** The dict display keyed by the three trigger strings. */
  function DurationTable(ts: TriggerSet, d: DurationDraws): Dict<string, int> {
    FromPairs([(Format(ts.start), d.start), (Format(ts.end), d.end), (Format(ts.bed), d.bed)])
  }

  /** The lookup in the display matches `now` exactly; of equal trigger times
      the one written last wins, so bedtime beats end beats start, and a `now`
      that is none of them gets 60. */
  lemma SessionDurationPriority(now: Minute, ts: TriggerSet, d: DurationDraws)
    ensures Get(DurationTable(ts, d), Format(now), DefaultDuration) ==
            if now == ts.bed then d.bed
            else if now == ts.end then d.end
            else if now == ts.start then d.start
            else DefaultDuration
  {
    var ps := [(Format(ts.start), d.start), (Format(ts.end), d.end), (Format(ts.bed), d.bed)];
    var k := Format(now);
    FromPairsLastWins(ps, k);
    var ps2, ps1 := ps[..2], ps[..1];
    assert ps2[..1] == ps1 && ps1[..0] == [];
    assert LastValue(ps1, k) == if ps[0].0 == k then Some(d.start) else None;
    assert LastValue(ps2, k) == if ps[1].0 == k then Some(d.end) else LastValue(ps1, k);
    assert LastValue(ps, k) == if ps[2].0 == k then Some(d.bed) else LastValue(ps2, k);
    FormatInjective(now, ts.bed);
    FormatInjective(now, ts.end);
    FormatInjective(now, ts.start);
  }

  /** `{start: …, end: …, bedtime: …}.get(now, 60)`: the duration drawn for
      the trigger `now` equals, bedtime first, then end, then start; 60 when
      `now` is none of them. */
  function SessionDuration(now: Minute, ts: TriggerSet, d: DurationDraws): (r: int)
    ensures r == if now == ts.bed then d.bed
                 else if now == ts.end then d.end
                 else if now == ts.start then d.start
                 else DefaultDuration
  {
    SessionDurationPriority(now, ts, d);
    Get(DurationTable(ts, d), Format(now), DefaultDuration)
  }

  /** The duration ranges of the three kinds of session. */
  lemma SessionDurationRanges(now: Minute, ts: TriggerSet, d: DurationDraws)
    requires ValidDurationDraws(d)
    ensures now == ts.bed ==> 75 <= SessionDuration(now, ts, d) <= 90
    ensures now != ts.bed && now == ts.end ==> 160 <= SessionDuration(now, ts, d) <= 180
    ensures now != ts.bed && now != ts.end && now == ts.start ==> 45 <= SessionDuration(now, ts, d) <= 60
    ensures now != ts.bed && now != ts.end && now != ts.start ==> SessionDuration(now, ts, d) == DefaultDuration
  {
  }

  // ---------------------------------------------------------------- one poll

  /** The outcome of one poll: the next state, whether the regeneration branch
      ran, and the duration of the session started, if one was. */
  datatype StepResult = StepResult(state: State, regenerated: bool, spawned: Option<int>)

  /** One iteration of the `while running_event.is_set()` loop. The trigger
      test uses the poll's `now` even after the ten-minute regeneration sleep. */
  function Step(code: string, st: State, p: Poll): (r: StepResult)
    requires ValidPoll(code, p)
    ensures r.regenerated <==> 30 <= p.now <= 40
    ensures r.state.triggers != st.triggers ==> r.regenerated
    ensures r.regenerated && ProfileOf(code).Some? ==>
              r.state.triggers == GenerateSchoolTimes(code, p.regen).value
    ensures r.spawned.Some? <==>
              AnyTriggerNear(p.now, r.state.triggers) && CooledDown(st.lastActivation, p.checkClock)
    ensures r.spawned.Some? ==> r.state.lastActivation == Some(p.recordClock)
    ensures r.spawned.None? ==> r.state.lastActivation == st.lastActivation
    ensures r.spawned.Some? ==> r.spawned.value == SessionDuration(p.now, r.state.triggers, p.durations)
    ensures r.spawned.Some? ==> 45 <= r.spawned.value <= 180
  {
    RegenerationWindow(p.now);
    var ts := Regenerate(code, st.triggers, p);
    if AnyTriggerNear(p.now, ts) && CooledDown(st.lastActivation, p.checkClock) then
      SessionDurationRanges(p.now, ts, p.durations);
      StepResult(State(ts, Some(p.recordClock)), RegenerationDue(p.now),
                 Some(SessionDuration(p.now, ts, p.durations)))
    else
      StepResult(State(ts, st.lastActivation), RegenerationDue(p.now), None)
  }

  // ---------------------------------------------------------------- a run of polls

  /** A session start: the clock recorded for it and its duration in minutes. */
  datatype Spawn = Spawn(at: int, minutes: int)

  predicate ValidPolls(code: string, polls: seq<Poll>) {
    forall i :: 0 <= i < |polls| ==> ValidPoll(code, polls[i])
  }

  /** Successive polls in order: within a poll the recording read is not
      earlier than the cooldown read, and it is not later than the next
      poll's cooldown read. */
  predicate ClocksAdvance(polls: seq<Poll>) {
    && (forall i :: 0 <= i < |polls| ==> polls[i].checkClock <= polls[i].recordClock)
    && (forall i :: 0 <= i < |polls| - 1 ==> polls[i].recordClock <= polls[i + 1].checkClock)
  }

  /** The recorded last activation is not after the first poll. */
  predicate StartsAfter(last: Option<int>, polls: seq<Poll>) {
    last.None? || |polls| == 0 || last.value <= polls[0].checkClock
  }

  /** The recording reads of the polls, in order. */
  function RecordClocks(polls: seq<Poll>): (cs: seq<int>)
    ensures |cs| == |polls| && forall i :: 0 <= i < |polls| ==> cs[i] == polls[i].recordClock
  {
    seq(|polls|, i requires 0 <= i < |polls| => polls[i].recordClock)
  }

  lemma RecordClocksCons(polls: seq<Poll>)
    requires |polls| > 0
    ensures RecordClocks(polls) == [polls[0].recordClock] + RecordClocks(polls[1..])
  {
    assert RecordClocks(polls)[1..] == RecordClocks(polls[1..]);
  }

  /** Every session in `sp` lasts 45 to 180 minutes and was recorded at one of `clocks`. */
  predicate SpawnsFrom(sp: seq<Spawn>, clocks: seq<int>) {
    forall k :: 0 <= k < |sp| ==> 45 <= sp[k].minutes <= 180 && sp[k].at in clocks
  }

  lemma SpawnsFromCons(first: seq<Spawn>, rest: seq<Spawn>, c: int, clocks: seq<int>)
    requires |first| <= 1 && (|first| == 1 ==> first[0].at == c && 45 <= first[0].minutes <= 180)
    requires SpawnsFrom(rest, clocks)
    ensures SpawnsFrom(first + rest, [c] + clocks)
  {
    var sp := first + rest;
    forall k | 0 <= k < |sp|
      ensures 45 <= sp[k].minutes <= 180 && sp[k].at in [c] + clocks
    {
      if k >= |first| {
        assert sp[k] == rest[k - |first|];
      }
    }
  }

  /** The clock of the last session in `sp`, or `before` when there is none. */
  function LatestSpawn(sp: seq<Spawn>, before: Option<int>): Option<int> {
    if |sp| == 0 then before else Some(sp[|sp| - 1].at)
  }

  lemma LatestSpawnConcat(a: seq<Spawn>, b: seq<Spawn>, before: Option<int>)
    ensures LatestSpawn(a + b, before) == LatestSpawn(b, LatestSpawn(a, before))
  {
    if |b| > 0 {
      assert (a + b)[|a + b| - 1] == b[|b| - 1];
    } else {
      assert a + b == a;
    }
  }

  /** Polls the scheduler in sequence, collecting the sessions it starts:
      the first poll contributes exactly the session its own `Step` spawned,
      recorded at that poll's clock, and the rest of the run continues from
      the state that step left; each session is 45 to 180 minutes long.
      Without polls nothing changes. The last activation after the run is
      the clock of the last session started, or the one before the run if
      none was. */
  function Run(code: string, st: State, polls: seq<Poll>): (r: (State, seq<Spawn>))
    requires ValidPolls(code, polls)
    ensures |r.1| <= |polls|
    ensures SpawnsFrom(r.1, RecordClocks(polls))
    ensures r.0.lastActivation == LatestSpawn(r.1, st.lastActivation)
    ensures |polls| == 0 ==> r == (st, [])
    ensures |polls| > 0 ==>
              var s := Step(code, st, polls[0]);
              r.1 == (if s.spawned.Some? then [Spawn(polls[0].recordClock, s.spawned.value)] else [])
                     + Run(code, s.state, polls[1..]).1
    decreases |polls|
  {
    if |polls| == 0 then (st, [])
    else
      var s := Step(code, st, polls[0]);
      var rest := Run(code, s.state, polls[1..]);
      var now := if s.spawned.Some? then [Spawn(polls[0].recordClock, s.spawned.value)] else [];
      SpawnsFromCons(now, rest.1, polls[0].recordClock, RecordClocks(polls[1..]));
      LatestSpawnConcat(now, rest.1, st.lastActivation);
      RecordClocksCons(polls);
      (rest.0, now + rest.1)
  }

  /** Every session in `sp` starts more than fifteen minutes after `last`. */
  predicate AllAfter(last: Option<int>, sp: seq<Spawn>) {
    last.Some? ==> forall i :: 0 <= i < |sp| ==> sp[i].at - last.value > Cooldown
  }

  /** Any two sessions in `sp` start more than fifteen minutes apart. */
  predicate Spaced(sp: seq<Spawn>) {
    forall i, j :: 0 <= i < j < |sp| ==> sp[j].at - sp[i].at > Cooldown
  }

  lemma SpacedCons(first: Spawn, rest: seq<Spawn>, last: Option<int>)
    requires last.Some? ==> first.at - last.value > Cooldown
    requires last.Some? ==> last.value <= first.at
    requires AllAfter(Some(first.at), rest) && Spaced(rest)
    ensures AllAfter(last, [first] + rest) && Spaced([first] + rest)
  {
    var sp := [first] + rest;
    assert forall i :: 0 < i < |sp| ==> sp[i] == rest[i - 1];
  }

  /** A session started by one poll is more than fifteen minutes after the
      activation before it, and so before every later session. */
  lemma StepKeepsSpacing(code: string, st: State, p: Poll, rest: seq<Spawn>)
    requires ValidPoll(code, p) && p.checkClock <= p.recordClock
    requires st.lastActivation.Some? ==> st.lastActivation.value <= p.checkClock
    requires AllAfter(Step(code, st, p).state.lastActivation, rest) && Spaced(rest)
    ensures var s := Step(code, st, p);
            var sp := (if s.spawned.Some? then [Spawn(p.recordClock, s.spawned.value)] else []) + rest;
            AllAfter(st.lastActivation, sp) && Spaced(sp)
  {
    var s := Step(code, st, p);
    if s.spawned.Some? {
      SpacedCons(Spawn(p.recordClock, s.spawned.value), rest, st.lastActivation);
    } else {
      assert [] + rest == rest;
    }
  }

  /** The first poll of a run, then the rest. */
  lemma RunUnfold(code: string, st: State, polls: seq<Poll>)
    requires ValidPolls(code, polls) && |polls| > 0
    ensures var s := Step(code, st, polls[0]);
            Run(code, st, polls).1 ==
              (if s.spawned.Some? then [Spawn(polls[0].recordClock, s.spawned.value)] else [])
              + Run(code, s.state, polls[1..]).1
  {
  }

  lemma ClocksAdvanceTail(polls: seq<Poll>)
    requires ClocksAdvance(polls) && |polls| > 0
    ensures ClocksAdvance(polls[1..])
    ensures |polls| > 1 ==> polls[0].recordClock <= polls[1..][0].checkClock
  {
  }

  /** With clocks that move forward, any two sessions a run starts are more
      than fifteen minutes apart, and each is more than fifteen minutes after
      the activation recorded before the run. */
  lemma {:induction false} RunSpawnsSpaced(code: string, st: State, polls: seq<Poll>)
    requires ValidPolls(code, polls)
    requires ClocksAdvance(polls)
    requires StartsAfter(st.lastActivation, polls)
    ensures AllAfter(st.lastActivation, Run(code, st, polls).1)
    ensures Spaced(Run(code, st, polls).1)
    decreases |polls|
  {
    if |polls| > 0 {
      var p := polls[0];
      var s := Step(code, st, p);
      var tail := polls[1..];
      var rest := Run(code, s.state, tail).1;
      RunUnfold(code, st, polls);
      assert ClocksAdvance(tail) && StartsAfter(s.state.lastActivation, tail) by {
        ClocksAdvanceTail(polls);
      }
      RunSpawnsSpaced(code, s.state, tail);
      assert p.checkClock <= p.recordClock;
      StepKeepsSpacing(code, st, p, rest);
    }
  }

  /** A poll at 07:45 against a trigger at 07:50 matches the tolerance but not
      the duration table, so the session started runs the default 60 minutes. */
  lemma NearMatchGetsDefaultDuration(d: DurationDraws, p: Poll)
    requires ValidDurationDraws(d)
    requires p == Poll(465, 0, 0, TimeDraws(0, 0, 0), d)
    ensures Step("p", State(TriggerSet(470, 915, 1230), None), p).spawned == Some(DefaultDuration)
  {
    var ts := TriggerSet(470, 915, 1230);
    RegenerationWindow(465);
    SessionDurationRanges(465, ts, d);
  }
}

=== FILE: session.dfy ===
/**
  `run_session`: find the mirror window, load the counts, unlock, then
  classify, scroll, save and sleep until the end time passes or the stop
  flag is cleared, and turn the screen off. Each pass of the loop reads the
  clock, the stop flag, the classifier's output and the random draws from a
  `Turn`; a run is given a finite list of them, and one that uses them all
  without meeting the end condition is reported as still running.
*/
module Session {
  import opened Basics
  import opened PyDict
  import opened LabelCounts
  import opened Perception
  import opened Gestures
  import opened Device

  /** What one pass of the loop reads from the outside world. */
  datatype Turn = Turn(
    clock: real,          // time.time() in the loop test
    running: bool,        // running_event.is_set()
    frame: Frame,         // the classifier's output for the screenshot
    clickRaises: bool,    // pyautogui raised while clicking
    click: ClickDraws,
    scroll: ScrollDraws,
    engagedSleep: int,    // random.randint(2, 17)
    idleSleep: int)       // random.randint(1, 5)

  predicate ValidTurn(t: Turn) {
    && ValidClickDraws(t.click) && ValidScrollDraws(t.scroll)
    && 2 <= t.engagedSleep <= 17 && 1 <= t.idleSleep <= 5
  }

  predicate ValidTurns(turns: seq<Turn>) {
    forall i :: 0 <= i < |turns| ==> ValidTurn(turns[i])
  }

  /** `time.time() < end_time and running_event.is_set()`. */
  predicate Continues(t: Turn, endTime: real) {
    t.clock < endTime && t.running
  }

  /** What a session does that can be seen from outside. */
  datatype Event =
    | Sent(action: DeviceAction)   // an ADB command of the device helpers
    | Clicked(at: Point)           // pointer moved to `at` and clicked twice
    | Scrolled(swipe: Swipe)       // the ADB swipe of `do_scroll`
    | Saved(rows: seq<Row>)        // the CSV written by `save_label_counts`
    | Slept(seconds: int)          // the pause at the end of a pass

  /** The device actions as events. */
  function Sends(acts: seq<DeviceAction>): (es: seq<Event>)
    ensures |es| == |acts| && forall i :: 0 <= i < |acts| ==> es[i] == Sent(acts[i])
  {
    seq(|acts|, i requires 0 <= i < |acts| => Sent(acts[i]))
  }

  /** Every event stays within the ranges the program draws from: clicks in
      the click box, swipes in the scroll box with a 100..200 ms duration,
      pauses of 1 to 17 seconds. */
  predicate EventInRange(w: int, h: int, e: Event) {
    match e
    case Clicked(p) => w >= 0 && h >= 0 ==> InBox(p, ClickBox(w, h))
    case Scrolled(s) =>
      && 100 <= s.duration <= 200
      && (w >= 0 && h >= 0 ==> InBox(Point(s.x1, s.y1), ScrollBox(w, h)) && InBox(Point(s.x2, s.y2), ScrollBox(w, h)))
    case Slept(s) => 1 <= s <= 17
    case _ => true
  }

  /** The five kinds of event. */
  datatype EventKind = SentKind | ClickKind | ScrollKind | SaveKind | SleepKind

  function KindOf(e: Event): EventKind {
    match e
    case Sent(_) => SentKind
    case Clicked(_) => ClickKind
    case Scrolled(_) => ScrollKind
    case Saved(_) => SaveKind
    case Slept(_) => SleepKind
  }

  /** The number of events of kind `k` in a trace. */
  function Count(trace: seq<Event>, k: EventKind): nat {
    if |trace| == 0 then 0 else (if KindOf(trace[0]) == k then 1 else 0) + Count(trace[1..], k)
  }

  /** The number of saves in a trace. */
  function Saves(trace: seq<Event>): nat {
    Count(trace, SaveKind)
  }

  lemma {:induction false} CountConcat(a: seq<Event>, b: seq<Event>, k: EventKind)
    ensures Count(a + b, k) == Count(a, k) + Count(b, k)
    decreases |a|
  {
    if |a| == 0 {
      assert a + b == b;
    } else {
      assert (a + b)[1..] == a[1..] + b;
      CountConcat(a[1..], b, k);
    }
  }

  /** A trace with no event of kind `k` has none at any position. */
  lemma {:induction false} CountZero(trace: seq<Event>, k: EventKind)
    requires Count(trace, k) == 0
    ensures forall i :: 0 <= i < |trace| ==> KindOf(trace[i]) != k
    decreases |trace|
  {
    if |trace| > 0 {
      CountZero(trace[1..], k);
      assert forall i :: 1 <= i < |trace| ==> trace[i] == trace[1..][i - 1];
    }
  }

  /** The rows of the last save in a trace. */
  function LastSaved(trace: seq<Event>): Option<seq<Row>> {
    if |trace| == 0 then None
    else match LastSaved(trace[1..])
      case Some(rows) => Some(rows)
      case None => if trace[0].Saved? then Some(trace[0].rows) else None
  }

  lemma {:induction false} SavesConcat(a: seq<Event>, b: seq<Event>)
    ensures Saves(a + b) == Saves(a) + Saves(b)
    ensures LastSaved(a + b) == if LastSaved(b).Some? then LastSaved(b) else LastSaved(a)
    decreases |a|
  {
    if |a| == 0 {
      assert a + b == b;
    } else {
      assert (a + b)[1..] == a[1..] + b;
      SavesConcat(a[1..], b);
    }
  }

  // ---------------------------------------------------------------- the loop

  /** A save between two other events is the only save of the three. */
  lemma SaveBetween(before: Event, rows: seq<Row>, after: Event)
    requires !before.Saved? && !after.Saved?
    ensures Saves([before, Saved(rows), after]) == 1
    ensures LastSaved([before, Saved(rows), after]) == Some(rows)
  {
    var t := [before, Saved(rows), after];
    var t1, t2, t3 := t[1..], t[1..][1..], t[1..][1..][1..];
    assert t1 == [Saved(rows), after] && t2 == [after] && t3 == [];
    assert Saves(t3) == 0 && LastSaved(t3) == None;
    assert Saves(t2) == 0 && LastSaved(t2) == None;
    assert Saves(t1) == 1 && LastSaved(t1) == Some(rows);
  }

  /** Every event of the trace is within its drawn range. */
  predicate AllInRange(w: int, h: int, es: seq<Event>) {
    forall i :: 0 <= i < |es| ==> EventInRange(w, h, es[i])
  }

  lemma InRangeConcat(w: int, h: int, a: seq<Event>, b: seq<Event>)
    requires AllInRange(w, h, a) && AllInRange(w, h, b)
    ensures AllInRange(w, h, a + b)
  {
    assert forall i :: 0 <= i < |a + b| ==> (a + b)[i] == if i < |a| then a[i] else b[i - |a|];
  }

  /** The clicks of `perform_clicks` land in the click box. */
  function ClickEvent(w: int, h: int, t: Turn): (e: Event)
    requires ValidTurn(t)
    ensures e.Clicked? && EventInRange(w, h, e)
  {
    Clicked(ClickPoint(w, h, t.click))
  }

  /** The swipe of `do_scroll` stays in the scroll box. */
  function ScrollEvent(w: int, h: int, t: Turn): (e: Event)
    requires ValidTurn(t)
    ensures e.Scrolled? && EventInRange(w, h, e)
  {
    Scrolled(ScrollSwipe(w, h, t.scroll))
  }

  /** The pause: 2..17 seconds after a detection whose clicks went through, 1..5 otherwise. */
  function PauseEvent(t: Turn, found: bool): (e: Event)
    requires ValidTurn(t)
    ensures e.Slept? && (if found then 2 <= e.seconds <= 17 else 1 <= e.seconds <= 5)
  {
    Slept(if found then t.engagedSleep else t.idleSleep)
  }

  /** A save after a click and before a pause is the only save of the four. */
  lemma SaveAfterClick(click: Event, before: Event, rows: seq<Row>, after: Event)
    requires !click.Saved? && !before.Saved? && !after.Saved?
    ensures Saves([click, before, Saved(rows), after]) == 1
    ensures LastSaved([click, before, Saved(rows), after]) == Some(rows)
  {
    SaveBetween(before, rows, after);
    assert [click, before, Saved(rows), after][1..] == [before, Saved(rows), after];
  }

  /** The events of one pass: a click exactly when `classify_and_click`
      returned true, then the scroll, the save of the updated counts and the
      pause, 2 to 17 seconds after a click and 1 to 5 otherwise; each event
      within its drawn range. */
  function PassEvents(w: int, h: int, t: Turn, cl: Classified): (es: seq<Event>)
    requires ValidTurn(t)
    ensures |es| == if cl.found then 4 else 3
    ensures es[0].Clicked? <==> cl.found
    ensures es[|es| - 3].Scrolled? && es[|es| - 2] == Saved(SaveRows(cl.counts)) && es[|es| - 1].Slept?
    ensures cl.found ==> 2 <= es[|es| - 1].seconds <= 17
    ensures !cl.found ==> 1 <= es[|es| - 1].seconds <= 5
    ensures AllInRange(w, h, es)
  {
    PassInRange(w, h, t, cl.found, SaveRows(cl.counts));
    var click, scroll, pause := ClickEvent(w, h, t), ScrollEvent(w, h, t), PauseEvent(t, cl.found);
    var saved := Saved(SaveRows(cl.counts));
    PassShape(click, scroll, saved, pause, cl.found);
    if cl.found then [click, scroll, saved, pause] else [scroll, saved, pause]
  }

  /** Where the events of a pass sit in its trace. */
  lemma PassShape(click: Event, scroll: Event, saved: Event, pause: Event, found: bool)
    requires click.Clicked? && scroll.Scrolled?
    ensures var es := if found then [click, scroll, saved, pause] else [scroll, saved, pause];
            && |es| == (if found then 4 else 3)
            && (es[0].Clicked? <==> found)
            && es[|es| - 3] == scroll && es[|es| - 2] == saved && es[|es| - 1] == pause
  {
  }

  lemma PassInRange(w: int, h: int, t: Turn, found: bool, rows: seq<Row>)
    requires ValidTurn(t)
    ensures AllInRange(w, h, [ScrollEvent(w, h, t), Saved(rows), PauseEvent(t, found)])
    ensures AllInRange(w, h, [ClickEvent(w, h, t), ScrollEvent(w, h, t), Saved(rows), PauseEvent(t, found)])
  {
    var a, b, c, d := ClickEvent(w, h, t), ScrollEvent(w, h, t), Saved(rows), PauseEvent(t, found);
    assert EventInRange(w, h, c) && EventInRange(w, h, d);
    FourInRange(w, h, a, b, c, d);
  }

  lemma FourInRange(w: int, h: int, a: Event, b: Event, c: Event, d: Event)
    requires EventInRange(w, h, a) && EventInRange(w, h, b) && EventInRange(w, h, c) && EventInRange(w, h, d)
    ensures AllInRange(w, h, [b, c, d]) && AllInRange(w, h, [a, b, c, d])
  {
    var s3, s4 := [b, c, d], [a, b, c, d];
    forall i | 0 <= i < 3 ensures EventInRange(w, h, s3[i]) {
      assert s3[i] == b || s3[i] == c || s3[i] == d;
    }
    forall i | 0 <= i < 4 ensures EventInRange(w, h, s4[i]) {
      assert s4[i] == a || s4[i] == b || s4[i] == c || s4[i] == d;
    }
  }

  /** A pass saves once, and what it saves is the updated counts. */
  lemma PassSavesOnce(w: int, h: int, t: Turn, cl: Classified)
    requires ValidTurn(t)
    ensures Saves(PassEvents(w, h, t, cl)) == 1
    ensures LastSaved(PassEvents(w, h, t, cl)) == Some(SaveRows(cl.counts))
  {
    var scroll, pause := ScrollEvent(w, h, t), PauseEvent(t, cl.found);
    if cl.found {
      SaveAfterClick(ClickEvent(w, h, t), scroll, SaveRows(cl.counts), pause);
    } else {
      SaveBetween(scroll, SaveRows(cl.counts), pause);
    }
  }

  /** The number of events of each kind in one pass: a click exactly when
      `classify_and_click` returned true, one scroll, one save, one pause,
      and no device command. */
  function PassCount(k: EventKind, found: bool): nat {
    match k
    case SentKind => 0
    case ClickKind => if found then 1 else 0
    case _ => 1
  }

  lemma CountCons(e: Event, t: seq<Event>, k: EventKind)
    ensures Count([e] + t, k) == (if KindOf(e) == k then 1 else 0) + Count(t, k)
  {
    assert ([e] + t)[1..] == t;
  }

  lemma CountThree(a: Event, b: Event, c: Event, k: EventKind)
    ensures Count([a, b, c], k)
            == (if KindOf(a) == k then 1 else 0) + (if KindOf(b) == k then 1 else 0) + (if KindOf(c) == k then 1 else 0)
  {
    assert [a, b, c] == [a] + [b, c] && [b, c] == [b] + [c] && [c] == [c] + [];
    CountCons(c, [], k);
    CountCons(b, [c], k);
    CountCons(a, [b, c], k);
  }

  lemma CountFour(x: Event, a: Event, b: Event, c: Event, k: EventKind)
    ensures Count([x, a, b, c], k) == (if KindOf(x) == k then 1 else 0) + Count([a, b, c], k)
  {
    assert [x, a, b, c][1..] == [a, b, c];
  }

  lemma PassCounts(w: int, h: int, t: Turn, cl: Classified, k: EventKind)
    requires ValidTurn(t)
    ensures Count(PassEvents(w, h, t, cl), k) == PassCount(k, cl.found)
  {
    var click, scroll, pause := ClickEvent(w, h, t), ScrollEvent(w, h, t), PauseEvent(t, cl.found);
    var saved := Saved(SaveRows(cl.counts));
    CountThree(scroll, saved, pause, k);
    CountFour(click, scroll, saved, pause, k);
  }

  /** The turn's frame is a detection and its clicks went through, so
      `classify_and_click` returns true. */
  predicate Engaged(t: Turn) {
    Decide(t.frame).Match? && !t.clickRaises
  }

  /** The number of engaged turns. */
  function Engagements(turns: seq<Turn>): nat {
    if |turns| == 0 then 0
    else (if Engaged(turns[0]) then 1 else 0) + Engagements(turns[1..])
  }

  /** Counting engagements in a non-empty prefix: its first turn, then the rest. */
  lemma EngagementsCons(turns: seq<Turn>, k: nat)
    requires 0 < k <= |turns|
    ensures Engagements(turns[..k]) == (if Engaged(turns[0]) then 1 else 0) + Engagements(turns[1..][..k - 1])
  {
    assert turns[..k][0] == turns[0] && turns[..k][1..] == turns[1..][..k - 1];
  }

  /** How a run of the loop ended, what it did and the counts it left. */
  datatype LoopResult = LoopResult(trace: seq<Event>, counts: Counts, turns: nat, ended: bool)

  /** The number of leading turns that meet the loop condition: how many
      passes the loop makes. */
  function Executed(endTime: real, turns: seq<Turn>): (n: nat)
    ensures n <= |turns|
    ensures forall i :: 0 <= i < n ==> Continues(turns[i], endTime)
    ensures n < |turns| ==> !Continues(turns[n], endTime)
    decreases |turns|
  {
    if |turns| == 0 || !Continues(turns[0], endTime) then 0
    else 1 + Executed(endTime, turns[1..])
  }

  /** The `while` loop of `run_session`. It makes one pass per leading turn
      that meets the loop condition and ends at the first that does not.
      Each pass saved once, the last save holds the final counts, and every
      event is within its drawn range. */
  function Loop(w: int, h: int, endTime: real, c: Counts, turns: seq<Turn>): (r: LoopResult)
    requires ValidTurns(turns)
    ensures r.turns == Executed(endTime, turns)
    ensures r.ended <==> r.turns < |turns|
    ensures Saves(r.trace) == r.turns
    ensures r.turns > 0 ==> LastSaved(r.trace) == Some(SaveRows(r.counts))
    ensures r.turns == 0 ==> r.trace == [] && r.counts == c
    ensures AllInRange(w, h, r.trace)
    ensures UniqueKeys(c) ==> UniqueKeys(r.counts)
    decreases |turns|
  {
    if |turns| == 0 then LoopResult([], c, 0, false)
    else if !Continues(turns[0], endTime) then LoopResult([], c, 0, true)
    else
      var cl := ClassifyAndClick(turns[0].frame, c, turns[0].clickRaises);
      var pass := PassEvents(w, h, turns[0], cl);
      PassSavesOnce(w, h, turns[0], cl);
      var rest := Loop(w, h, endTime, cl.counts, turns[1..]);
      PassThenRest(w, h, pass, cl.counts, rest.trace, rest.turns, rest.counts);
      LoopResult(pass + rest.trace, rest.counts, rest.turns + 1, rest.ended)
  }

  /** The loop's trace holds one scroll and one pause per pass, and no
      device command. */
  lemma {:induction false} LoopPerPass(w: int, h: int, endTime: real, c: Counts, turns: seq<Turn>)
    requires ValidTurns(turns)
    ensures var r := Loop(w, h, endTime, c, turns);
            Count(r.trace, ScrollKind) == r.turns && Count(r.trace, SleepKind) == r.turns
            && Count(r.trace, SentKind) == 0
    decreases |turns|
  {
    if |turns| > 0 && Continues(turns[0], endTime) {
      var cl := ClassifyAndClick(turns[0].frame, c, turns[0].clickRaises);
      var rest := Loop(w, h, endTime, cl.counts, turns[1..]);
      var pass := PassEvents(w, h, turns[0], cl);
      LoopUnfold(w, h, endTime, c, turns);
      LoopPerPass(w, h, endTime, cl.counts, turns[1..]);
      PassCounts(w, h, turns[0], cl, ScrollKind);
      PassCounts(w, h, turns[0], cl, SleepKind);
      PassCounts(w, h, turns[0], cl, SentKind);
      CountConcat(pass, rest.trace, ScrollKind);
      CountConcat(pass, rest.trace, SleepKind);
      CountConcat(pass, rest.trace, SentKind);
    }
  }

  /** The loop's trace holds one click per pass whose detection's clicks
      went through. */
  lemma {:induction false} LoopClicks(w: int, h: int, endTime: real, c: Counts, turns: seq<Turn>)
    requires ValidTurns(turns)
    ensures var r := Loop(w, h, endTime, c, turns);
            Count(r.trace, ClickKind) == Engagements(turns[..r.turns])
    decreases |turns|
  {
    if |turns| == 0 || !Continues(turns[0], endTime) {
      assert turns[..0] == [];
    } else {
      var cl := ClassifyAndClick(turns[0].frame, c, turns[0].clickRaises);
      var rest := Loop(w, h, endTime, cl.counts, turns[1..]);
      var pass := PassEvents(w, h, turns[0], cl);
      LoopUnfold(w, h, endTime, c, turns);
      LoopClicks(w, h, endTime, cl.counts, turns[1..]);
      PassCounts(w, h, turns[0], cl, ClickKind);
      CountConcat(pass, rest.trace, ClickKind);
      EngagementsCons(turns, rest.turns + 1);
    }
  }

  /** A loop whose first turn meets the condition: that turn's pass, then the
      loop over the remaining turns from the counts it left. */
  lemma LoopUnfold(w: int, h: int, endTime: real, c: Counts, turns: seq<Turn>)
    requires ValidTurns(turns) && |turns| > 0 && Continues(turns[0], endTime)
    ensures var cl := ClassifyAndClick(turns[0].frame, c, turns[0].clickRaises);
            var rest := Loop(w, h, endTime, cl.counts, turns[1..]);
            var r := Loop(w, h, endTime, c, turns);
            r.trace == PassEvents(w, h, turns[0], cl) + rest.trace && r.turns == rest.turns + 1
  {
  }

  /** A pass that saved `mid` once, followed by the rest of the loop. */
  lemma PassThenRest(w: int, h: int, pass: seq<Event>, mid: Counts, rest: seq<Event>, k: nat, final: Counts)
    requires Saves(pass) == 1 && LastSaved(pass) == Some(SaveRows(mid)) && AllInRange(w, h, pass)
    requires Saves(rest) == k && AllInRange(w, h, rest)
    requires k > 0 ==> LastSaved(rest) == Some(SaveRows(final))
    requires k == 0 ==> rest == [] && final == mid
    ensures Saves(pass + rest) == k + 1
    ensures LastSaved(pass + rest) == Some(SaveRows(final))
    ensures AllInRange(w, h, pass + rest)
  {
    SavesConcat(pass, rest);
    InRangeConcat(w, h, pass, rest);
  }

  /** The frame is a detection of `name`. */
  predicate Detects(f: Frame, name: string) {
    Decide(f).Match? && Decide(f).name == name
  }

  /** The number of turns whose frame is a detection of `name`. */
  function Detections(turns: seq<Turn>, name: string): nat {
    if |turns| == 0 then 0
    else (if Detects(turns[0].frame, name) then 1 else 0) + Detections(turns[1..], name)
  }

  /** One classification adds one to the detected label and nothing else. */
  lemma ClassifyTally(f: Frame, c: Counts, clickRaises: bool, name: string)
    ensures Get(ClassifyAndClick(f, c, clickRaises).counts, name, 0)
            == Get(c, name, 0) + (if Detects(f, name) then 1 else 0)
  {
  }

  /** Counting detections in a non-empty prefix: its first turn, then the rest. */
  lemma DetectionsCons(turns: seq<Turn>, k: nat, name: string)
    requires 0 < k <= |turns|
    ensures Detections(turns[..k], name)
            == (if Detects(turns[0].frame, name) then 1 else 0) + Detections(turns[1..][..k - 1], name)
  {
    assert turns[..k][0] == turns[0] && turns[..k][1..] == turns[1..][..k - 1];
  }

  /** Each label's count after the loop is its count before plus the number
      of passes that detected it, whether or not the clicks then failed. */
  lemma {:induction false} LoopTally(w: int, h: int, endTime: real, c: Counts, turns: seq<Turn>, name: string)
    requires ValidTurns(turns)
    ensures Get(Loop(w, h, endTime, c, turns).counts, name, 0)
            == Get(c, name, 0) + Detections(turns[..Loop(w, h, endTime, c, turns).turns], name)
    decreases |turns|
  {
    var r := Loop(w, h, endTime, c, turns);
    if |turns| == 0 || !Continues(turns[0], endTime) {
      assert turns[..r.turns] == [];
    } else {
      var cl := ClassifyAndClick(turns[0].frame, c, turns[0].clickRaises);
      ClassifyTally(turns[0].frame, c, turns[0].clickRaises, name);
      LoopTally(w, h, endTime, cl.counts, turns[1..], name);
      DetectionsCons(turns, r.turns, name);
    }
  }

  // ---------------------------------------------------------------- a session

  /** A session either finds no mirror window and does nothing, or runs. */
  datatype Outcome =
    | NoWindow
    | Ran(trace: seq<Event>, counts: Counts, turns: nat, finished: bool)

  /** `run_session(duration_min, pin_code, unlock_method)` starting at clock
      `start`. Without the window nothing is loaded, unlocked or sent. With
      it the device is unlocked first; the loop runs until its condition
      fails; the screen is turned off after it. The counts after the session
      are the loaded counts plus one per detection, per label. */
  function RunSession(windowFound: bool, file: CountFile, durationMin: int, pin: string, unlockMethod: string,
                      start: real, w: int, h: int, turns: seq<Turn>): (r: Outcome)
    requires ValidTurns(turns)
    ensures r.NoWindow? <==> !windowFound
    ensures r.Ran? ==> r.turns == Executed(start + (durationMin * 60) as real, turns)
    ensures r.Ran? ==> r.turns <= |turns|
    ensures r.Ran? ==> |r.trace| >= |UnlockDevice(pin, unlockMethod)|
                       && r.trace[..|UnlockDevice(pin, unlockMethod)|] == Sends(UnlockDevice(pin, unlockMethod))
    ensures r.Ran? ==> forall i :: 0 <= i < r.turns ==> turns[i].running && turns[i].clock < start + (durationMin * 60) as real
    ensures r.Ran? ==> (r.finished <==> r.turns < |turns|)
    ensures r.Ran? && r.finished ==> r.trace[|r.trace| - 1] == Sent(Key(KeyPower))
    ensures r.Ran? ==> UniqueKeys(r.counts)
    ensures r.Ran? ==> forall name :: Get(r.counts, name, 0) == Get(Load(file), name, 0) + Detections(turns[..r.turns], name)
    ensures r.Ran? ==> Saves(r.trace) == r.turns && AllInRange(w, h, r.trace)
    ensures r.Ran? ==> Count(r.trace, ScrollKind) == r.turns && Count(r.trace, SleepKind) == r.turns
    ensures r.Ran? ==> Count(r.trace, ClickKind) == Engagements(turns[..r.turns])
    ensures r.Ran? ==> Count(r.trace, SentKind) == |UnlockDevice(pin, unlockMethod)| + (if r.finished then 1 else 0)
    ensures r.Ran? ==> forall i :: |UnlockDevice(pin, unlockMethod)| <= i < |r.trace| - (if r.finished then 1 else 0)
                                   ==> !r.trace[i].Sent?
  {
    if !windowFound then NoWindow
    else
      var c := Load(file);
      var endTime := start + (durationMin * 60) as real;
      var unlock := Sends(UnlockDevice(pin, unlockMethod));
      var l := Loop(w, h, endTime, c, turns);
      var off := Sends(if l.ended then TurnOffScreen() else []);
      TallyAll(w, h, endTime, c, turns);
      LoopPerPass(w, h, endTime, c, turns);
      LoopClicks(w, h, endTime, c, turns);
      SessionTrace(w, h, UnlockDevice(pin, unlockMethod), l.trace, l.ended);
      SessionTraceCounts(UnlockDevice(pin, unlockMethod), l.trace, l.ended);
      Ran(unlock + l.trace + off, l.counts, l.turns, l.ended)
  }

  /** The trace of a session: the unlock commands, the loop's events, and the
      power key when the loop ended. */
  lemma SessionTrace(w: int, h: int, unlock: seq<DeviceAction>, trace: seq<Event>, ended: bool)
    requires AllInRange(w, h, trace)
    ensures var t := Sends(unlock) + trace + Sends(if ended then TurnOffScreen() else []);
            && |t| >= |unlock| && t[..|unlock|] == Sends(unlock)
            && (ended ==> t[|t| - 1] == Sent(Key(KeyPower)))
            && Saves(t) == Saves(trace) && AllInRange(w, h, t)
  {
    var after := if ended then TurnOffScreen() else [];
    var t := Sends(unlock) + trace + Sends(after);
    assert t[..|unlock|] == Sends(unlock);
    SendsAround(w, h, unlock, trace, after);
  }

  /** Device commands around a trace that sends none: every other kind is
      counted in the trace alone, and no command lies between the unlock
      and the power key. */
  lemma SessionTraceCounts(unlock: seq<DeviceAction>, trace: seq<Event>, ended: bool)
    requires Count(trace, SentKind) == 0
    ensures var t := Sends(unlock) + trace + Sends(if ended then TurnOffScreen() else []);
            && Count(t, ScrollKind) == Count(trace, ScrollKind) && Count(t, SleepKind) == Count(trace, SleepKind)
            && Count(t, ClickKind) == Count(trace, ClickKind)
            && Count(t, SentKind) == |unlock| + (if ended then 1 else 0)
            && forall i :: |unlock| <= i < |t| - (if ended then 1 else 0) ==> !t[i].Sent?
  {
    var after := if ended then TurnOffScreen() else [];
    var t := Sends(unlock) + trace + Sends(after);
    assert |after| == if ended then 1 else 0;
    forall k ensures Count(t, k) == (if k == SentKind then |unlock| + |after| else Count(trace, k)) {
      CountConcat(Sends(unlock), trace, k);
      CountConcat(Sends(unlock) + trace, Sends(after), k);
      SendsCount(unlock, k);
      SendsCount(after, k);
    }
    CountZero(trace, SentKind);
    forall i | |unlock| <= i < |t| - (if ended then 1 else 0) ensures !t[i].Sent? {
      assert t[i] == trace[i - |unlock|];
    }
  }

  /** Device commands are all of kind `Sent`. */
  lemma {:induction false} SendsCount(acts: seq<DeviceAction>, k: EventKind)
    ensures Count(Sends(acts), k) == if k == SentKind then |acts| else 0
    decreases |acts|
  {
    if |acts| > 0 {
      assert Sends(acts)[1..] == Sends(acts[1..]);
      SendsCount(acts[1..], k);
    }
  }

  /** Device commands around a trace add no save and stay in range. */
  lemma SendsAround(w: int, h: int, before: seq<DeviceAction>, trace: seq<Event>, after: seq<DeviceAction>)
    requires AllInRange(w, h, trace)
    ensures Saves(Sends(before) + trace + Sends(after)) == Saves(trace)
    ensures AllInRange(w, h, Sends(before) + trace + Sends(after))
  {
    SendsHaveNoSave(before);
    SendsHaveNoSave(after);
    SavesConcat(Sends(before), trace);
    SavesConcat(Sends(before) + trace, Sends(after));
    InRangeConcat(w, h, Sends(before), trace);
    InRangeConcat(w, h, Sends(before) + trace, Sends(after));
  }

  lemma TallyAll(w: int, h: int, endTime: real, c: Counts, turns: seq<Turn>)
    requires ValidTurns(turns)
    ensures forall name :: Get(Loop(w, h, endTime, c, turns).counts, name, 0)
                           == Get(c, name, 0) + Detections(turns[..Loop(w, h, endTime, c, turns).turns], name)
  {
    forall name {
      LoopTally(w, h, endTime, c, turns, name);
    }
  }

  /** Device commands around a trace do not change its last save. */
  lemma LastSavedBetweenSends(before: seq<DeviceAction>, trace: seq<Event>, after: seq<DeviceAction>)
    ensures LastSaved(Sends(before) + trace + Sends(after)) == LastSaved(trace)
  {
    SendsHaveNoSave(before);
    SavesNoneHasNoLast(Sends(before));
    SendsHaveNoSave(after);
    SavesNoneHasNoLast(Sends(after));
    SavesConcat(Sends(before), trace);
    SavesConcat(Sends(before) + trace, Sends(after));
  }

  /** After a session that ran at least one pass, the last file written
      loads back as the session's final counts. */
  lemma LastSaveReloads(windowFound: bool, file: CountFile, durationMin: int, pin: string, unlockMethod: string,
                        start: real, w: int, h: int, turns: seq<Turn>)
    requires ValidTurns(turns)
    ensures var r := RunSession(windowFound, file, durationMin, pin, unlockMethod, start, w, h, turns);
            r.Ran? && r.turns > 0 ==>
              LastSaved(r.trace).Some? && Load(Present(LastSaved(r.trace).value)) == r.counts
  {
    if windowFound {
      var r := RunSession(windowFound, file, durationMin, pin, unlockMethod, start, w, h, turns);
      var l := Loop(w, h, start + (durationMin * 60) as real, Load(file), turns);
      var off := if l.ended then TurnOffScreen() else [];
      assert Sends([]) == [];
      assert r.trace == Sends(UnlockDevice(pin, unlockMethod)) + l.trace + Sends(off);
      LastSavedBetweenSends(UnlockDevice(pin, unlockMethod), l.trace, off);
      SaveLoadRoundTrip(r.counts);
    }
  }

  lemma {:induction false} SendsHaveNoSave(acts: seq<DeviceAction>)
    ensures Saves(Sends(acts)) == 0
    decreases |acts|
  {
    if |acts| > 0 {
      assert Sends(acts)[1..] == Sends(acts[1..]);
      SendsHaveNoSave(acts[1..]);
    }
  }

  lemma {:induction false} SavesNoneHasNoLast(trace: seq<Event>)
    requires Saves(trace) == 0
    ensures LastSaved(trace) == None
    decreases |trace|
  {
    if |trace| > 0 {
      SavesNoneHasNoLast(trace[1..]);
    }
  }

  /** A session whose duration is not positive still unlocks the device and
      turns the screen off, but runs no pass and changes no count. */
  lemma NonPositiveDurationRunsNoPass(file: CountFile, durationMin: int, pin: string, unlockMethod: string,
                                      start: real, w: int, h: int, turns: seq<Turn>)
    requires ValidTurns(turns)
    requires durationMin <= 0 && |turns| > 0 && turns[0].clock >= start
    ensures RunSession(true, file, durationMin, pin, unlockMethod, start, w, h, turns)
            == Ran(Sends(UnlockDevice(pin, unlockMethod)) + [Sent(Key(KeyPower))], Load(file), 0, true)
  {
    assert (durationMin * 60) as real <= 0.0;
    assert Sends(TurnOffScreen()) == [Sent(Key(KeyPower))];
  }
}

=== FILE: time_of_day.dfy ===
/**
  Times of day as the scheduler handles them: `HH:MM` strings produced by
  `strftime("%H:%M")`, read here as minutes since midnight. Covers
  `generate_random_time`, `generate_school_times` and `is_within_time`.
*/
module TimeOfDay {
  import opened Basics
  import opened PyStr

  const MinutesPerDay: int := 1440
  const HalfDay: int := 720

  /** A time of day, to the minute. */
  type Minute = m: int | 0 <= m < 1440

  // ---------------------------------------------------------------- HH:MM

  function TwoDigits(n: nat): string
    requires n < 100
  {
    [DigitChar(n / 10), DigitChar(n % 10)]
  }

  /** `strftime("%H:%M")`: the hour and the minute, each as two digits,
      around a colon. */
  function Format(m: Minute): (s: string)
    ensures |s| == 5 && s[2] == ':'
    ensures IsDigit(s[0]) && IsDigit(s[1]) && IsDigit(s[3]) && IsDigit(s[4])
    ensures DigitValue(s[0]) * 10 + DigitValue(s[1]) == m / 60
    ensures DigitValue(s[3]) * 10 + DigitValue(s[4]) == m % 60
  {
    TwoDigits(m / 60) + ":" + TwoDigits(m % 60)
  }

  /** `strptime(s, "%H:%M")` on the zero-padded form; `None` is the `ValueError`. */
  function Parse(s: string): (r: Option<Minute>)
    ensures r.Some? ==> Format(r.value) == s
  {
    if |s| == 5 && IsDigit(s[0]) && IsDigit(s[1]) && s[2] == ':' && IsDigit(s[3]) && IsDigit(s[4]) then
      var h := DigitValue(s[0]) * 10 + DigitValue(s[1]);
      var mm := DigitValue(s[3]) * 10 + DigitValue(s[4]);
      if h < 24 && mm < 60 then
        FormatOfDigits(s, h, mm);
        Some(h * 60 + mm)
      else None
    else None
  }

  /** Two digits with the same value are the same character. */
  lemma SameDigit(c: char, d: char)
    requires IsDigit(c) && IsDigit(d) && DigitValue(c) == DigitValue(d)
    ensures c == d
  {
  }

  /** A zero-padded `HH:MM` string is what `Format` writes for its minute. */
  lemma FormatOfDigits(s: string, h: nat, mm: nat)
    requires |s| == 5 && IsDigit(s[0]) && IsDigit(s[1]) && s[2] == ':' && IsDigit(s[3]) && IsDigit(s[4])
    requires h == DigitValue(s[0]) * 10 + DigitValue(s[1]) && h < 24
    requires mm == DigitValue(s[3]) * 10 + DigitValue(s[4]) && mm < 60
    ensures Format(h * 60 + mm) == s
  {
    var f := Format(h * 60 + mm);
    assert (h * 60 + mm) / 60 == h && (h * 60 + mm) % 60 == mm;
    SameDigit(f[0], s[0]);
    SameDigit(f[1], s[1]);
    SameDigit(f[3], s[3]);
    SameDigit(f[4], s[4]);
    assert forall i :: 0 <= i < 5 ==> f[i] == s[i];
  }

  /** Parsing a formatted time gives the time back. */
  lemma ParseFormat(m: Minute)
    ensures Parse(Format(m)) == Some(m)
  {
    var s := Format(m);
    assert DigitValue(s[0]) * 10 + DigitValue(s[1]) == m / 60;
    assert DigitValue(s[3]) * 10 + DigitValue(s[4]) == m % 60;
  }

  /** Two times print the same exactly when they are the same minute. */
  lemma FormatInjective(a: Minute, b: Minute)
    ensures Format(a) == Format(b) <==> a == b
  {
    if Format(a) == Format(b) {
      ParseFormat(a);
      ParseFormat(b);
    }
  }

  // ---------------------------------------------------------------- string order

  /** Python's `a <= b` on strings: lexicographic by code point. */
  predicate StrLe(a: string, b: string)
    decreases |a|
  {
    |a| == 0 || (|b| > 0 && (a[0] < b[0] || (a[0] == b[0] && StrLe(a[1..], b[1..]))))
  }

  /** Lexicographic order of four digits with bounded ranges agrees with the
      numeric order of the minute they spell. */
  lemma DigitTupleOrder(a1: int, a2: int, a3: int, a4: int, b1: int, b2: int, b3: int, b4: int)
    requires 0 <= a2 < 10 && 0 <= a3 < 6 && 0 <= a4 < 10
    requires 0 <= b2 < 10 && 0 <= b3 < 6 && 0 <= b4 < 10
    ensures (a1 < b1 || (a1 == b1 && (a2 < b2 || (a2 == b2 && (a3 < b3 || (a3 == b3 && a4 <= b4))))))
            <==> 600 * a1 + 60 * a2 + 10 * a3 + a4 <= 600 * b1 + 60 * b2 + 10 * b3 + b4
  {
  }

  lemma DigitCharOrder(i: nat, j: nat)
    requires i < 10 && j < 10
    ensures DigitChar(i) < DigitChar(j) <==> i < j
    ensures DigitChar(i) == DigitChar(j) <==> i == j
  {
  }

  /** On two `HH:MM`-shaped strings, Python's string order compares the two
      hour digits, then the two minute digits. */
  lemma StrLeClock(x: string, y: string)
    requires |x| == 5 && |y| == 5 && x[2] == y[2]
    ensures StrLe(x, y) <==>
              x[0] < y[0] || (x[0] == y[0] && (x[1] < y[1] || (x[1] == y[1] &&
              (x[3] < y[3] || (x[3] == y[3] && x[4] <= y[4])))))
  {
    assert x[1..][1..][1..][1..][1..] == [];
    assert y[1..][1..][1..][1..][1..] == [];
    assert StrLe(x[1..][1..][1..][1..], y[1..][1..][1..][1..]) <==> x[4] <= y[4];
    assert StrLe(x[1..][1..][1..], y[1..][1..][1..]) <==> x[3] < y[3] || (x[3] == y[3] && x[4] <= y[4]);
    assert StrLe(x[1..][1..], y[1..][1..]) <==> x[3] < y[3] || (x[3] == y[3] && x[4] <= y[4]);
  }

  /** Comparing two `HH:MM` strings as strings is comparing the times. */
  lemma FormatOrder(a: Minute, b: Minute)
    ensures StrLe(Format(a), Format(b)) <==> a <= b
  {
    StrLeClock(Format(a), Format(b));
    var a1, a2, a3, a4 := a / 60 / 10, a / 60 % 10, a % 60 / 10, a % 60 % 10;
    var b1, b2, b3, b4 := b / 60 / 10, b / 60 % 10, b % 60 / 10, b % 60 % 10;
    DigitCharOrder(a1, b1);
    DigitCharOrder(a2, b2);
    DigitCharOrder(a3, b3);
    DigitCharOrder(a4, b4);
    assert a == 600 * a1 + 60 * a2 + 10 * a3 + a4;
    assert b == 600 * b1 + 60 * b2 + 10 * b3 + b4;
    DigitTupleOrder(a1, a2, a3, a4, b1, b2, b3, b4);
  }

  // ---------------------------------------------------------------- random time

  /** A sampling range `start`..`end`; one with `end < start` runs past midnight. */
  datatype Window = Window(from: Minute, to: Minute)

  /** The minutes from `from` to `to`, going forward past midnight if needed. */
  function SpanMinutes(w: Window): nat {
    if w.to < w.from then w.to + MinutesPerDay - w.from else w.to - w.from
  }

  /** `m` lies in the window, counting across midnight for a wrapping one. */
  predicate InWindow(m: Minute, w: Window) {
    if w.from <= w.to then w.from <= m <= w.to else w.from <= m || m <= w.to
  }

  /** `generate_random_time(start, end)` with `seconds` the value of
      `random.randint(0, span in seconds)`; `strftime` drops the seconds and
      the date, so the result is the start plus whole minutes, modulo a day. */
  function GenerateRandomTime(w: Window, seconds: nat): (m: Minute)
    requires seconds <= SpanMinutes(w) * 60
    ensures InWindow(m, w)
    ensures w.from <= w.to ==> w.from <= m <= w.to
    ensures w.to < w.from ==> w.from <= m < MinutesPerDay || 0 <= m <= w.to
    ensures w.from == w.to ==> m == w.from
  {
    (w.from + seconds / 60) % MinutesPerDay
  }

  /** Every minute of the window can be drawn. */
  lemma RandomTimeCoversWindow(w: Window, m: Minute)
    requires InWindow(m, w)
    ensures exists seconds: nat :: seconds <= SpanMinutes(w) * 60 && GenerateRandomTime(w, seconds) == m
  {
    var k: nat := if m >= w.from then m - w.from else m + MinutesPerDay - w.from;
    assert k <= SpanMinutes(w);
    assert GenerateRandomTime(w, k * 60) == m;
  }

  // ---------------------------------------------------------------- profiles

  /** The three sampling ranges of a school type. */
  datatype Profile = Profile(morning: Window, afternoon: Window, bedtime: Window)

  /** The three trigger times of a day. */
  datatype TriggerSet = TriggerSet(start: Minute, end: Minute, bed: Minute)

  /** The `randint` draws, in seconds, for the three ranges. */
  datatype TimeDraws = TimeDraws(start: nat, end: nat, bed: nat)

  /** The table of `generate_school_times`: `u`, `h` and `p`; any other code has none. */
  function ProfileOf(code: string): Option<Profile> {
    if code == "u" then Some(Profile(Window(480, 540), Window(900, 1080), Window(1380, 30)))
    else if code == "h" then Some(Profile(Window(450, 510), Window(900, 960), Window(1260, 1350)))
    else if code == "p" then Some(Profile(Window(450, 510), Window(900, 960), Window(1200, 1260)))
    else None
  }

  /** Each draw lies in the range `randint` was given for its window. */
  predicate DrawsFit(p: Profile, d: TimeDraws) {
    && d.start <= SpanMinutes(p.morning) * 60
    && d.end <= SpanMinutes(p.afternoon) * 60
    && d.bed <= SpanMinutes(p.bedtime) * 60
  }

  predicate DrawsFitCode(code: string, d: TimeDraws) {
    ProfileOf(code).Some? ==> DrawsFit(ProfileOf(code).value, d)
  }

  /** `generate_school_times(code)`: for `u`, `h` and `p`, the three times
      `generate_random_time` draws from that profile's ranges, each inside
      its range; `None` for any other code. */
  function GenerateSchoolTimes(code: string, d: TimeDraws): (r: Option<TriggerSet>)
    requires DrawsFitCode(code, d)
    ensures r.Some? <==> code == "u" || code == "h" || code == "p"
    ensures code == "u" ==> r.Some? && 480 <= r.value.start <= 540 && 900 <= r.value.end <= 1080
                            && (1380 <= r.value.bed || r.value.bed <= 30)
    ensures code == "h" ==> r.Some? && 450 <= r.value.start <= 510 && 900 <= r.value.end <= 960
                            && 1260 <= r.value.bed <= 1350
    ensures code == "p" ==> r.Some? && 450 <= r.value.start <= 510 && 900 <= r.value.end <= 960
                            && 1200 <= r.value.bed <= 1260
    ensures r.Some? ==> var p := ProfileOf(code).value;
              r.value == TriggerSet(GenerateRandomTime(p.morning, d.start),
                                    GenerateRandomTime(p.afternoon, d.end),
                                    GenerateRandomTime(p.bedtime, d.bed))
  {
    match ProfileOf(code)
    case None => None
    case Some(p) =>
      Some(TriggerSet(GenerateRandomTime(p.morning, d.start),
                      GenerateRandomTime(p.afternoon, d.end),
                      GenerateRandomTime(p.bedtime, d.bed)))
  }

  /** Every trigger set whose times lie in a profile's ranges is generated by
      some admissible draws. */
  lemma SchoolTimesCoverProfile(code: string, ts: TriggerSet)
    requires ProfileOf(code).Some?
    requires InWindow(ts.start, ProfileOf(code).value.morning)
    requires InWindow(ts.end, ProfileOf(code).value.afternoon)
    requires InWindow(ts.bed, ProfileOf(code).value.bedtime)
    ensures exists d :: DrawsFitCode(code, d) && GenerateSchoolTimes(code, d) == Some(ts)
  {
    var p := ProfileOf(code).value;
    RandomTimeCoversWindow(p.morning, ts.start);
    RandomTimeCoversWindow(p.afternoon, ts.end);
    RandomTimeCoversWindow(p.bedtime, ts.bed);
    var a: nat :| a <= SpanMinutes(p.morning) * 60 && GenerateRandomTime(p.morning, a) == ts.start;
    var b: nat :| b <= SpanMinutes(p.afternoon) * 60 && GenerateRandomTime(p.afternoon, b) == ts.end;
    var c: nat :| c <= SpanMinutes(p.bedtime) * 60 && GenerateRandomTime(p.bedtime, c) == ts.bed;
    assert DrawsFitCode(code, TimeDraws(a, b, c));
    assert GenerateSchoolTimes(code, TimeDraws(a, b, c)) == Some(ts);
  }

  // ---------------------------------------------------------------- tolerance

  function Abs(x: int): nat {
    if x < 0 then -x else x
  }

  /** Distance between two times of day going the shorter way round the clock. */
  function CircularDistance(a: Minute, b: Minute): nat {
    Min(Abs(a - b), MinutesPerDay - Abs(a - b))
  }

  /** `is_within_time(current, target, tolerance)`: the target is moved by a
      day when it is more than 12 hours away, then the gap is compared with the
      tolerance. That is exactly a circular distance within the tolerance. */
  function IsWithinTime(current: Minute, target: Minute, tolerance: int): (r: bool)
    ensures r <==> CircularDistance(current, target) <= tolerance
  {
    var t := if target < current - HalfDay then target + MinutesPerDay
             else if target > current + HalfDay then target - MinutesPerDay
             else target;
    Abs(current - t) <= tolerance
  }

  /** A time is within any non-negative tolerance of itself. */
  lemma IsWithinTimeReflexive(t: Minute, tolerance: int)
    requires tolerance >= 0
    ensures IsWithinTime(t, t, tolerance)
  {
  }

  /** Swapping current and target does not change the answer. */
  lemma IsWithinTimeSymmetric(a: Minute, b: Minute, tolerance: int)
    ensures IsWithinTime(a, b, tolerance) == IsWithinTime(b, a, tolerance)
  {
  }

  /** The check works across midnight: 23:58 is within 5 minutes of 00:02. */
  lemma IsWithinTimeAcrossMidnight()
    ensures Parse("23:58") == Some(1438) && Parse("00:02") == Some(2)
    ensures IsWithinTime(1438, 2, 5)
  {
  }
}
